=== FILE: README.md ===
# World-map places: a Dafny model

`app.js` is a single-page bookmarking app. The user pins places on a
Leaflet world map, and each place carries:

- a title;
- a link;
- a photo link, where a Google Drive share link is rewritten to a thumbnail;
- a note.

The app keeps the collection in `localStorage`, lists it as cards, shows it
as markers, filters it with a search box, previews the selected place, and
exports and imports it as JSON.

This project models the part of `app.js` that decides the data. The
visual surfaces are reduced to the data they are built from.

- **State.** The state is the pair (`places`, `selectedId`), and the model
  covers every handler that changes it: select, delete, clear-all, the
  add/edit form's submit handler, the import handler, and start-up with
  `loadPlaces`' fallback to an empty collection.
- **Views.** The filter, the card order (newest first), the marker index
  and the preview.
- **Import normaliser.** The normaliser that turns an arbitrary JSON array
  into well-formed records, and its partner, the exported JSON value.
- **Helpers.** The pure helpers `escapeHtml`, `sanitizeUrl`,
  `extractDriveId`, `normalizePhotoUrl` and the part of
  `encodeURIComponent` they use.

Modules, one per file:

| module | file | contents |
|---|---|---|
| `Wrappers` | `wrappers.dfy` | `Option`, `Result` |
| `Seqs` | `seqs.dfy` | first index, order-preserving filter, subsequences |
| `Text` | `text.dfy` | JavaScript `trim` whitespace, ASCII `toLowerCase`, `includes`, `slice`, code-point order |
| `Js` | `js.dfy` | JSON values, truthiness, `String(x)`, `Number(x)` and when they throw; the number/text conversions themselves are parameters |
| `Html` | `html.dfy` | `escapeHtml` and its inverse |
| `Urls` | `urls.dfy` | `sanitizeUrl`, the Drive id, `encodeURIComponent` and its decoder; the WHATWG URL parser is a parameter |
| `Places` | `places.dfy` | the record, lookup by id |
| `Views` | `views.dfy` | filter, display order, marker index, preview |
| `Importer` | `importer.dfy` | the import normaliser, export, the round trip |
| `Store` | `store.dfy` | state, handlers, the selection invariant over every run |
| `Scenarios` | `scenarios.dfy` | a three-object import of which one record survives; a file refused because `String` throws; the replace-import counterexample |
| `DriveLinks` | `drive_links.dfy` | which concrete Drive links are rewritten |

Random ids (`uuid`), clock readings (`new Date().toISOString()`),
confirmation answers (`confirm`) and the file's contents are arguments of
the functions that need them. The URL parser (`new URL`) and the
number/string conversions (`Number(text)`, `String(number)`) are also
arguments.

## Model

| member | source | states |
|---|---|---|
| `Html.EscapeHtml` | app.js:16-21 | no `<`, `>`, `"` or `'` is left in the result |
| `Html.EscapeHtmlAmpersands` | app.js:17 | every `&` in the result begins one of the five entities, so nothing is escaped twice |
| `Html.UnescapeEscape` | app.js:16-21 | decoding the five entities gives back the original text |
| `Html.EscapeHtmlAppend` | app.js:16-21 | escaping the concatenation of two texts gives the concatenation of their escapes |
| `Urls.SanitizeUrl` | app.js:23-26 | "" for empty text or text the parser rejects, otherwise the parser's serialisation |
| `Urls.SanitizeIdempotent` | app.js:23-26 | with a parser that reparses its own output to itself, sanitising twice equals sanitising once |
| `Urls.IdRun` | app.js:34 | the greedy `[a-zA-Z0-9_-]` run: a prefix of id characters followed by a non-id character or the end |
| `Urls.FirstMatch` | app.js:34 | the leftmost position where `/file/d/` is followed by at least ten id characters, and no match when there is none |
| `Urls.PathDriveIdShape` | app.js:34-35 | an id taken from the path has at least ten id characters and follows `/file/d/` in the path |
| `Urls.ExtractDriveId` | app.js:29-40 | a non-empty id only for a parsable link whose host ends in `drive.google.com`; the path id wins over the `id` query parameter |
| `Urls.NormalizePhotoUrl` | app.js:42-48 | "" exactly when sanitising gives ""; the thumbnail address when a Drive id is found; the sanitised link otherwise |
| `Urls.NormalizeNonDrive` | app.js:33 | a link on any other host is kept as sanitised |
| `Urls.NormalizePathWins` | app.js:34-35 | a Drive link with a path id is rewritten with that id |
| `Urls.NormalizeQueryId` | app.js:36-37 | a Drive link without a path id but with a non-empty `id` parameter is rewritten with the parameter |
| `Urls.EncodeUriComponent` | app.js:46 | every character of the encoding is either unreserved or a `%` followed by two upper-case hex digits |
| `Urls.EncodeUnreservedIdentity` | app.js:46 | an id made only of `[a-zA-Z0-9_-]` is written into the thumbnail address unchanged |
| `Urls.DecodeEncode` | app.js:46 | percent-decoding the UTF-8 encoding gives back the id |
| `Text.Trim` | app.js:230 | the result is the input with leading and trailing JavaScript whitespace removed, and it neither starts nor ends with whitespace |
| `Text.TrimEmptyIff` | app.js:231 | the trimmed query is empty exactly when the search text is all whitespace |
| `Text.TrimOfTrimmed` | app.js:372-379 | trimming leaves text that neither starts nor ends with whitespace unchanged |
| `Text.TrimIdempotent` | app.js:372-379 | trimming twice is trimming once |
| `Text.ContainsIff` | app.js:238-239 | the scan used for `includes` succeeds exactly when the query occurs at some position |
| `Text.LessTransitive` | app.js:177 | the string order used for sorting is transitive |
| `Text.LessTotal` | app.js:177 | any two different strings are ordered one way or the other |
| `Places.IndexOfId` | app.js:385 | `findIndex`: the first position holding the id, and none exactly when no record has it |
| `Places.IndexOfFirst` | app.js:385 | `findIndex` returns the position that holds the id first |
| `Places.FindById` | app.js:157 | `find`: the first record with the id, and none exactly when no record has it |
| `Views.FilterView` | app.js:229-244 | a blank query shows the whole collection; otherwise a record is shown exactly when its lower-cased title or note contains the query |
| `Views.FilterViewKeepsOrder` | app.js:237-240 | the view is a subsequence of the collection and keeps every shown record as often as it occurs |
| `Views.BlankQueryShowsAll` | app.js:231-235 | all-whitespace search text shows the collection in its own order |
| `Views.FilterViewMembership` | app.js:237-240 | a record is shown exactly when the query occurs in its lower-cased title or note |
| `Views.FilterViewAppend` | app.js:237-240 | after appending a record, the view is the old view plus the new record exactly when it matches |
| `Views.Insert` | app.js:177 | inserting into a newest-first list keeps it newest-first and adds exactly that record |
| `Views.DisplayOrder` | app.js:177 | the cards are a permutation of the view, newest `createdAt` first, missing stamps last |
| `Views.DisplayOrderStable` | app.js:177 | records with equal `createdAt` keep their relative order, as the stable `sort` keeps them |
| `Views.MarkerIndex` | app.js:102-124 | every key maps to a marker of that id, and it is the last one rendered, because later markers overwrite earlier ones |
| `Views.MarkerKeys` | app.js:107-123 | the marker index has one entry per id in the view |
| `Views.CardsAndMarkersAgree` | app.js:102-124 | the cards and the markers show the same set of ids for any collection and search text |
| `Views.Preview` | app.js:258-262 | the preview shows a record exactly when the selection is a non-empty id present in the collection, and it shows the first record with that id |
| `Store.Load` | app.js:50-57 | a missing, unparsable or non-array stored value loads as no places; a stored array loads as one record per element, read field by field |
| `Store.Init` | app.js:467-468 | start-up selects the first loaded record, or nothing when there is none |
| `Store.FromStoredToJson` | app.js:58 | reading back one saved record gives the record, except that a non-finite coordinate, saved as `null`, reads back as 0 |
| `Store.SaveLoad` | app.js:50-58 | loading what was saved gives a collection of the same length, and each record comes back unchanged apart from non-finite coordinates, which come back as 0 |
| `Store.SaveLoadFinite` | app.js:50-58 | when every coordinate is finite, loading what was saved gives the same collection |
| `Store.SelectPlace` | app.js:299-302 | an unknown id changes nothing; a known id becomes the selection; the collection is untouched |
| `Store.Refilter` | app.js:229-244 | the search box's re-selection leaves the state as it was |
| `Store.DeletePlace` | app.js:156-163 | an unknown id or a declined confirmation changes nothing; otherwise exactly the records without that id remain, and the selection is dropped only if it was that id |
| `Store.DeleteKeepsOthers` | app.js:160 | deleting keeps the other records in order and multiplicity |
| `Store.ClearAll` | app.js:458-463 | with confirmation the collection and selection are emptied; without it nothing changes |
| `Store.SubmitForm` | app.js:370-412 | an empty title changes nothing; an edit of an unknown id changes nothing; an edit replaces only the first record with that id and selects it; an add appends one new record and selects it |
| `Store.EditById` | app.js:384-391 | only the edited position changes, and it holds the edited record |
| `Store.EditedFields` | app.js:388 | an edit keeps id and `createdAt`, takes every editable field from the form, and stamps `updatedAt` |
| `Store.EditFormUnchanged` | app.js:339-388 | the edit form filled from a record with trimmed text, a canonical link and coordinates that survive the trip through text turns back into the same record, apart from `updatedAt` |
| `Store.EditWithSameValues` | app.js:364-391 | opening the edit form on such a record and submitting it unchanged selects the record and changes only its `updatedAt` |
| `Importer.NormalizeOne` | app.js:434-443 | the title and note are the input text cut to 80 and 500 characters; the id and `createdAt` fall back to the supplied id and time exactly when the field is falsy; `updatedAt` is present exactly when the field is truthy; `openNewTab` is false exactly for an explicit `false`; a link that `new URL` cannot convert reads as ""; the link is canonical |
| `Importer.Candidates` | app.js:433-443 | candidate k is the normalisation of the k-th object of the array, with the k-th supplied id and time |
| `Importer.NormalizeAll` | app.js:433-444 | the imported records are the candidates with a title and finite coordinates, in candidate order and with their multiplicity, and each is well-formed |
| `Importer.ReadImport` | app.js:428-446 | text that is not JSON, an array-less value, an array holding an object whose fields `String`/`Number` cannot convert, and an array with no valid record are each refused, exactly in those cases and each with its own error; otherwise the file is accepted and gives exactly the normalised records, a non-empty list of well-formed records |
| `Importer.NormalizeToJson` | app.js:433-444 | normalising the exported form of a portable record gives the record back |
| `Importer.ExportImportRoundTrip` | app.js:415-446 | importing the export of a non-empty collection of portable records gives the same collection |
| `Store.ImportFileAsWritten` | app.js:424-456 | no file changes nothing and reports nothing; text that is not JSON reports `NotJson`; a parsed file reports exactly the error `ReadImport` gives it and nothing when it is accepted; a refused file changes nothing; an accepted one replaces the collection by, or extends it with, the imported records; the selection is never touched |
| `Store.ImportFile` | app.js:424-456 | the import handler with the selection dropped when its record is gone; it keeps a valid selection valid and otherwise agrees with the handler as written |
| `Store.ImportAppendKeepsSelection` | app.js:448 | appending keeps a valid selection valid even as written |
| `Store.DeleteKeepsSelectionValid` | app.js:160-162 | deletion keeps the selection naming an existing record or nothing |
| `Store.SubmitKeepsSelectionValid` | app.js:384-406 | submitting the form keeps the selection valid |
| `Store.StepKeepsSelectionValid` | app.js:156-465 | every user action preserves the selection invariant, with the import handler replaced by the repaired `Store.ImportFile` |
| `Store.RunKeepsSelectionValid` | app.js:458-468 | with the repaired import handler, every state reachable from start-up has a valid selection, so the preview shows a record exactly when an id is selected |
| `Scenarios.ImportKeepsOnlyValid` | app.js:433-446 | of `{A,1,2}`, `{"",1,2}` and `{B,"x",2}` only the record titled "A" is imported |
| `Scenarios.ToStringKeyRefused` | app.js:433-454 | `[{"title": {"toString": 0}, "lat": 1, "lng": 2}]` is refused as a whole, because `String` throws on the title, and the collection is left as it was |
| `Scenarios.ReplaceImportStrandsSelection` | app.js:447-450 | as written, a replacing import can leave the selection naming a vanished record; the repaired handler clears it |
| `DriveLinks.NinePathIdNotFound` | app.js:34 | `/file/d/XYZ123abc/view` carries no path id: the id has nine characters and the pattern needs ten |
| `DriveLinks.TenPathIdFound` | app.js:34-35 | `/file/d/XYZ123abcd/view` carries the path id `XYZ123abcd` |
| `DriveLinks.NinePathLinkKept` | app.js:42-48 | a Drive share link with a nine-character path id is kept as it is, not rewritten |
| `DriveLinks.QueryLinkRewritten` | app.js:36-46 | an `open?id=XYZ123abc` link is rewritten to the thumbnail for that id |
| `DriveLinks.TenPathLinkRewritten` | app.js:34-46 | a share link with a ten-character path id is rewritten to the thumbnail for that id |
| `DriveLinks.ThumbnailOfPlainId` | app.js:46 | the thumbnail address of a plain id contains the id verbatim |

## Left out

- Rendering: Leaflet, the DOM, popups, tooltips, highlighting, toasts and alerts.
  They only display the state, and their inputs are the views modelled above.
  The HTML strings of `makePopupHtml`/`makeHoverTooltipHtml` are reduced to the
  escaping they rely on.
- Storage I/O: `localStorage` is a value of type `Stored`, which holds the
  JSON value that the stored text denotes, so the text form of JSON is not
  modelled. A coordinate of any type other than a number is read as
  `Number` reads it. A text field of any type other than a string is read
  as "". A non-finite coordinate, which the form can produce, survives in
  memory but comes back as 0 after a reload (`Store.SaveLoad`). A stored
  coordinate on which `Number` throws, an object with its own `toString`
  key, reads as NaN. The app instead throws when it first renders that
  coordinate.
  A non-boolean `openNewTab` is read by truthiness, as the popups and
  `openLink` read it. The edit form at app.js:347 instead treats a missing
  flag as true, so a stored record without the flag loads unchecked in the
  model but shows a checked box in the app. An array element that is not an
  object loads as a record of empty fields. The app keeps such an element,
  and its first render then throws at `p.url` or `b.createdAt`
  (app.js:177-178).
- Reading files: the asynchronous `file.text()` call and the clearing of the
  file input are left out. A second import started while one is pending is not
  modelled.
- Floating point: `toFixedCoord` and `formatDate` are display only.
  Coordinates are a `Num` (finite real, NaN, ±Infinity), and `Number(text)` /
  `String(number)` are caller-supplied functions.
- Add mode, the modal and the map click that opens it are left out. The
  submit handler receives the form's field values directly.
- The in-place marker updates after an edit (app.js:393-399) and the
  fly-to/open-popup effects are left out, because the model does not
  describe marker positions or popups. These updates act on the markers
  that `applyFilter` has just rebuilt (app.js:391), through `markerById`,
  which holds the last marker for an id. With duplicate ids they move
  another record's marker to the edited coordinates until the next render.
- `Text.Lower`: lower-cases ASCII letters only. `toLowerCase` also maps
  other scripts, which would need the Unicode case tables.
- `Text.Less`: compares by code point where the source uses `localeCompare`.
  The locale's collation is outside the model. Any strict total order keeps
  the sort's properties.
- `Text.Take`: cuts titles and notes by characters (Unicode scalar values),
  whereas `slice` counts UTF-16 code units.
- `Urls.SanitizeUrl`: the WHATWG URL parser is a parameter. The only
  assumption is that a parser reparses its own output to itself (`Canonical`),
  and only where a lemma needs it.
- `Urls.EncodeUriComponent`: encodes Unicode scalar values. Lone surrogates,
  which make the source throw, cannot occur in a Dafny string.
- Id uniqueness: `uuid` is a parameter. The model neither assumes nor
  guarantees unique ids. Lookups take the first record with an id, and the
  marker index takes the last, exactly as the source does.
- Store.EditWithSameValues: holds only for records whose text is already
  trimmed, whose link is canonical, and whose coordinates survive
  `String`→`Number`. The submit handler trims and re-parses, so any other
  record does change.
- Form validation: the source applies no title or note length limit and no
  finiteness check on coordinates in the form. The model does not add them.

## Findings

| source | as written | input that shows it | evidently intended | confidence | as-written member | corrected member |
|---|---|---|---|---|---|---|
| app.js:447-450 | a replacing import sets `places` and re-renders, but never resets `selectedId`; `applyFilter` then calls `selectPlace`, which silently does nothing for an unknown id | collection `[{id:"a",…}]` with "a" selected; replace-import of `[{id:"b",title:"B",lat:1,lng:2}]` | drop a selection whose record is gone, as delete and clear-all do with `setSelected(null)` | not executed | `Store.ImportFileAsWritten`, `Scenarios.ReplaceImportStrandsSelection` | `Store.ImportFile`, `Store.RunKeepsSelectionValid` |

A Drive share link whose path id has nine characters
(`/file/d/XYZ123abc/view`) is kept as it is, because the pattern at
app.js:34 needs at least ten id characters (`DriveLinks.NinePathLinkKept`).
Only `open?id=XYZ123abc` is rewritten to the thumbnail
(`DriveLinks.QueryLinkRewritten`).

=== FILE: drive_links.dfy ===
/** The photo-link rewrite on concrete Google Drive links: which share
    links become thumbnails and which are kept. */
module DriveLinks {
  import opened Wrappers
  import opened Text
  import opened Urls

  /** A Drive path whose id has nine characters, as in `/file/d/XYZ123abc/view`:
      the pattern needs ten, and `/file/d/` occurs nowhere else. */
  lemma NinePathIdNotFound()
    ensures PathDriveId("/file/d/XYZ123abc/view") == None
  {
    var path := "/file/d/XYZ123abc/view";
    NinePathNoMatchAtStart(path);
    NinePathOnlyAtStart(path);
    NoMatchFrom(path, 0);
  }

  lemma NinePathNoMatchAtStart(path: string)
    requires path == "/file/d/XYZ123abc/view"
    ensures MatchAt(path, 0).None?
  {
    var tail := path[8..];
    assert tail == "XYZ123abc/view";
    IdRunStopsAt(tail, 9);
    assert |IdRun(path[0..][8..])| == 9 by {
      assert path[0..] == path;
    }
  }

  lemma NinePathOnlyAtStart(path: string)
    requires path == "/file/d/XYZ123abc/view"
    ensures forall k :: 1 <= k <= |path| ==> MatchAt(path, k).None?
  {
    forall k | 1 <= k <= |path|
      ensures MatchAt(path, k).None?
    {
      if MatchAt(path, k).Some? {
        MatchNeedsSlashF(path, k);
        assert false;
      }
    }
  }

  /** With one more id character the path segment is found. */
  lemma TenPathIdFound()
    ensures PathDriveId("/file/d/XYZ123abcd/view") == Some("XYZ123abcd")
  {
    var path := "/file/d/XYZ123abcd/view";
    assert path[0..] == path;
    assert path[..8] == "/file/d/";
    assert path[8..][10] == '/';
    IdRunStopsAt(path[8..], 10);
    assert path[8..][..10] == "XYZ123abcd";
    assert MatchAt(path, 0) == Some("XYZ123abcd");
    assert FirstMatch(path, 0) == Some(0);
  }

  /** A path too short for the pattern carries no id. */
  lemma OpenPathHasNoId()
    ensures PathDriveId("/open") == None
  {
    forall k | 0 <= k <= |"/open"|
      ensures MatchAt("/open", k).None?
    {
      if MatchAt("/open", k).Some? {
        MatchNeedsSlashF("/open", k);
      }
    }
  }

  /** A Drive share link with a nine-character id in its path is kept as
      it is: the photo shown is the share page, not the thumbnail. */
  lemma NinePathLinkKept(parse: Parser, link: string)
    requires link != ""
    requires parse(link) == Some(Url(link, "drive.google.com", "/file/d/XYZ123abc/view", []))
    ensures NormalizePhotoUrl(parse, link) == link
  {
    NinePathIdNotFound();
    assert QueryGet([], "id") == None;
  }

  lemma QueryIdFound()
    ensures QueryGet([("id", "XYZ123abc")], "id") == Some("XYZ123abc")
  {
    var q := [("id", "XYZ123abc")];
    assert q[0].0 == "id";
  }

  /** An `open?id=` link with the same id is rewritten to the thumbnail. */
  lemma QueryLinkRewritten(parse: Parser, link: string)
    requires link != ""
    requires parse(link) == Some(Url(link, "drive.google.com", "/open", [("id", "XYZ123abc")]))
    ensures NormalizePhotoUrl(parse, link) == Thumbnail("XYZ123abc")
  {
    OpenPathHasNoId();
    QueryIdFound();
    assert EndsWith("drive.google.com", DriveHost);
    assert ExtractDriveId(parse, link) == "XYZ123abc";
  }

  /** A ten-character id in the path is rewritten to the thumbnail. */
  lemma TenPathLinkRewritten(parse: Parser, link: string)
    requires link != ""
    requires parse(link) == Some(Url(link, "drive.google.com", "/file/d/XYZ123abcd/view", []))
    ensures NormalizePhotoUrl(parse, link) == Thumbnail("XYZ123abcd")
  {
    TenPathIdFound();
    assert EndsWith("drive.google.com", DriveHost);
    assert ExtractDriveId(parse, link) == "XYZ123abcd";
  }

  /** The thumbnail address carries a plain id unchanged. */
  lemma ThumbnailOfPlainId(id: string)
    requires forall k :: 0 <= k < |id| ==> IsIdChar(id[k])
    ensures Thumbnail(id) == "https://drive.google.com/thumbnail?id=" + id + "&sz=w1000"
  {
    EncodeUnreservedIdentity(id);
  }
}

=== FILE: html.dfy ===
/** `escapeHtml`: the chain of `replaceAll` rewrites that makes a title or
    note safe to splice into popup, tooltip and card markup. */
module Html {
  import opened Text

  /** `s.replaceAll(c, rep)` for a one-character pattern. Every character of
      the result comes from `rep` or is a character of `s` other than `c`. */
  function ReplaceAll(s: string, c: char, rep: string): (r: string)
    ensures forall x :: x in r ==> (x in s && x != c) || x in rep
  {
    if s == [] then []
    else (if s[0] == c then rep else [s[0]]) + ReplaceAll(s[1..], c, rep)
  }

  lemma {:induction false} ReplaceAllAppend(a: string, b: string, c: char, rep: string)
    ensures ReplaceAll(a + b, c, rep) == ReplaceAll(a, c, rep) + ReplaceAll(b, c, rep)
  {
    if a != [] {
      assert (a + b)[0] == a[0] && (a + b)[1..] == a[1..] + b;
      ReplaceAllAppend(a[1..], b, c, rep);
    } else {
      assert a + b == b;
    }
  }

  lemma {:induction false} ReplaceAllAbsent(s: string, c: char, rep: string)
    requires c !in s
    ensures ReplaceAll(s, c, rep) == s
  {
    if s != [] {
      ReplaceAllAbsent(s[1..], c, rep);
    }
  }

  /** `escapeHtml`: `&` first, then `<`, `>`, `"` and `'`. None of the four
      markup-significant characters survives. */
  function EscapeHtml(s: string): (r: string)
    ensures '<' !in r && '>' !in r && '"' !in r && '\'' !in r
  {
    ReplaceAll(ReplaceAll(ReplaceAll(ReplaceAll(ReplaceAll(s,
      '&', "&amp;"), '<', "&lt;"), '>', "&gt;"), '"', "&quot;"), '\'', "&#039;")
  }

  /** The text each character becomes under `EscapeHtml`. */
  function EscapeChar(c: char): string {
    if c == '&' then "&amp;"
    else if c == '<' then "&lt;"
    else if c == '>' then "&gt;"
    else if c == '"' then "&quot;"
    else if c == '\'' then "&#039;"
    else [c]
  }

  /** Single-pass, per-character escaping. */
  function EscapeEach(s: string): string {
    if s == [] then [] else EscapeChar(s[0]) + EscapeEach(s[1..])
  }

  predicate BeginsEntity(t: string) {
    || StartsWith(t, "&amp;")
    || StartsWith(t, "&lt;")
    || StartsWith(t, "&gt;")
    || StartsWith(t, "&quot;")
    || StartsWith(t, "&#039;")
  }

  /** Every `&` of `r` is the first character of one of the five entities. */
  predicate AmpersandsBeginEntities(r: string) {
    forall i :: 0 <= i < |r| && r[i] == '&' ==> BeginsEntity(r[i..])
  }

  /** Decodes the five entities `EscapeHtml` writes and nothing else. */
  function Unescape(s: string): string
    decreases |s|
  {
    if s == [] then []
    else if StartsWith(s, "&amp;") then "&" + Unescape(s[5..])
    else if StartsWith(s, "&lt;") then "<" + Unescape(s[4..])
    else if StartsWith(s, "&gt;") then ">" + Unescape(s[4..])
    else if StartsWith(s, "&quot;") then "\"" + Unescape(s[6..])
    else if StartsWith(s, "&#039;") then "'" + Unescape(s[6..])
    else [s[0]] + Unescape(s[1..])
  }

  /** The five chained rewrites do the same as one per-character pass:
      no replacement text contains a character a later rewrite looks for. */
  lemma {:induction false} EscapeHtmlIsPerChar(s: string)
    ensures EscapeHtml(s) == EscapeEach(s)
  {
    if s != [] {
      var h, t := [s[0]], s[1..];
      assert s == h + t;
      EscapeHtmlAppend(h, t);
      EscapeHtmlIsPerChar(t);
      EscapeHtmlOneChar(s[0]);
    }
  }

  lemma EscapeHtmlAppend(a: string, b: string)
    ensures EscapeHtml(a + b) == EscapeHtml(a) + EscapeHtml(b)
  {
    var a1, b1 := ReplaceAll(a, '&', "&amp;"), ReplaceAll(b, '&', "&amp;");
    ReplaceAllAppend(a, b, '&', "&amp;");
    var a2, b2 := ReplaceAll(a1, '<', "&lt;"), ReplaceAll(b1, '<', "&lt;");
    ReplaceAllAppend(a1, b1, '<', "&lt;");
    var a3, b3 := ReplaceAll(a2, '>', "&gt;"), ReplaceAll(b2, '>', "&gt;");
    ReplaceAllAppend(a2, b2, '>', "&gt;");
    var a4, b4 := ReplaceAll(a3, '"', "&quot;"), ReplaceAll(b3, '"', "&quot;");
    ReplaceAllAppend(a3, b3, '"', "&quot;");
    ReplaceAllAppend(a4, b4, '\'', "&#039;");
  }

  lemma EscapeHtmlOneChar(c: char)
    ensures EscapeHtml([c]) == EscapeChar(c)
  {
    var s1 := ReplaceAll([c], '&', "&amp;");
    ReplaceAllOne(c, '&', "&amp;");
    if c == '&' {
      LastFour(s1);
    } else if c == '<' || c == '>' || c == '"' || c == '\'' {
      SpecialOneChar(c);
    } else {
      LastFour(s1);
    }
  }

  lemma SpecialOneChar(c: char)
    requires c == '<' || c == '>' || c == '"' || c == '\''
    ensures EscapeHtml([c]) == EscapeChar(c)
  {
    var s1 := ReplaceAll([c], '&', "&amp;");
    ReplaceAllOne(c, '&', "&amp;");
    var s2 := ReplaceAll(s1, '<', "&lt;");
    var s3 := ReplaceAll(s2, '>', "&gt;");
    var s4 := ReplaceAll(s3, '"', "&quot;");
    ReplaceAllOne(c, '<', "&lt;");
    if c == '<' {
      LastThree(s2);
    } else {
      ReplaceAllOne(c, '>', "&gt;");
      if c == '>' {
        LastTwo(s3);
      } else {
        ReplaceAllOne(c, '"', "&quot;");
        ReplaceAllOne(c, '\'', "&#039;");
        if c == '"' {
          ReplaceAllAbsent(s4, '\'', "&#039;");
        }
      }
    }
  }

  /** A text with none of the last four patterns passes the last four
      rewrites unchanged. */
  lemma LastFour(t: string)
    requires '<' !in t && '>' !in t && '"' !in t && '\'' !in t
    ensures ReplaceAll(ReplaceAll(ReplaceAll(ReplaceAll(t,
      '<', "&lt;"), '>', "&gt;"), '"', "&quot;"), '\'', "&#039;") == t
  {
    ReplaceAllAbsent(t, '<', "&lt;");
    LastThree(t);
  }

  lemma LastThree(t: string)
    requires '>' !in t && '"' !in t && '\'' !in t
    ensures ReplaceAll(ReplaceAll(ReplaceAll(t, '>', "&gt;"), '"', "&quot;"), '\'', "&#039;") == t
  {
    ReplaceAllAbsent(t, '>', "&gt;");
    LastTwo(t);
  }

  lemma LastTwo(t: string)
    requires '"' !in t && '\'' !in t
    ensures ReplaceAll(ReplaceAll(t, '"', "&quot;"), '\'', "&#039;") == t
  {
    ReplaceAllAbsent(t, '"', "&quot;");
    ReplaceAllAbsent(t, '\'', "&#039;");
  }

  lemma ReplaceAllOne(x: char, c: char, rep: string)
    ensures ReplaceAll([x], c, rep) == if x == c then rep else [x]
  {
    assert [x][1..] == [];
  }

  /** No double escaping: every `&` in the output starts an entity, because
      `&` is rewritten before any rewrite that introduces one. */
  lemma EscapeHtmlAmpersands(s: string)
    ensures AmpersandsBeginEntities(EscapeHtml(s))
  {
    EscapeHtmlIsPerChar(s);
    EscapeEachAmpersands(s);
  }

  lemma {:induction false} EscapeEachAmpersands(s: string)
    ensures AmpersandsBeginEntities(EscapeEach(s))
  {
    if s != [] {
      EscapeEachAmpersands(s[1..]);
      var e, rest := EscapeChar(s[0]), EscapeEach(s[1..]);
      var r := e + rest;
      forall i | 0 <= i < |r| && r[i] == '&' ensures BeginsEntity(r[i..]) {
        if i < |e| {
          EscapeCharAmpersand(s[0], rest, i);
          assert r[i..] == r;
        } else {
          assert r[i..] == rest[i - |e|..];
        }
      }
    }
  }

  /** Inside the text one character becomes, a `&` can only be the first
      character of an entity. */
  lemma EscapeCharAmpersand(c: char, rest: string, i: nat)
    requires i < |EscapeChar(c)| && (EscapeChar(c) + rest)[i] == '&'
    ensures i == 0 && BeginsEntity(EscapeChar(c) + rest)
  {
    var e := EscapeChar(c);
    var r := e + rest;
    assert r[i] == e[i];
    assert r[..|e|] == e;
    if c == '&' {
      assert StartsWith(r, "&amp;");
    } else if c == '<' {
      assert StartsWith(r, "&lt;");
    } else if c == '>' {
      assert StartsWith(r, "&gt;");
    } else if c == '"' {
      assert StartsWith(r, "&quot;");
    } else if c == '\'' {
      assert StartsWith(r, "&#039;");
    }
  }

  /** Decoding the five entities undoes `EscapeHtml`. */
  lemma UnescapeEscape(s: string)
    ensures Unescape(EscapeHtml(s)) == s
  {
    EscapeHtmlIsPerChar(s);
    UnescapeEscapeEach(s);
  }

  lemma {:induction false} UnescapeEscapeEach(s: string)
    ensures Unescape(EscapeEach(s)) == s
  {
    if s != [] {
      UnescapeEscapeEach(s[1..]);
      UnescapeStep(s[0], EscapeEach(s[1..]));
      assert s == [s[0]] + s[1..];
    }
  }

  /** Decoding the escape of one character gives that character back and
      leaves the rest of the text to the recursive call. */
  lemma UnescapeStep(c: char, rest: string)
    ensures Unescape(EscapeChar(c) + rest) == [c] + Unescape(rest)
  {
    var r := EscapeChar(c) + rest;
    if c == '&' {
      assert r[..5] == "&amp;" && r[5..] == rest;
    } else if c == '<' {
      assert r[..4] == "&lt;" && r[4..] == rest;
      assert !StartsWith(r, "&amp;") by { assert r[1] == 'l'; }
    } else if c == '>' {
      assert r[..4] == "&gt;" && r[4..] == rest;
      assert !StartsWith(r, "&amp;") && !StartsWith(r, "&lt;") by { assert r[1] == 'g'; }
    } else if c == '"' {
      assert r[..6] == "&quot;" && r[6..] == rest;
      assert !StartsWith(r, "&amp;") && !StartsWith(r, "&lt;") && !StartsWith(r, "&gt;")
        by { assert r[1] == 'q'; }
    } else if c == '\'' {
      assert r[..6] == "&#039;" && r[6..] == rest;
      assert !StartsWith(r, "&amp;") && !StartsWith(r, "&lt;") && !StartsWith(r, "&gt;")
        && !StartsWith(r, "&quot;") by { assert r[1] == '#'; }
    } else {
      assert r[0] == c && r[1..] == rest;
      assert !BeginsEntity(r);
    }
  }
}

=== FILE: importer.dfy ===
/** The import normaliser and the export it is meant to read back: every
    object of an imported JSON array is mapped to a well-formed record, the
    records without a title or with a non-finite coordinate are dropped, and
    an import that leaves nothing is refused. */
module Importer {
  import opened Wrappers
  import opened Js
  import opened Text
  import opened Urls
  import opened Places
  import Seqs

  const MaxTitle: nat := 80
  const MaxNote: nat := 500

  /** Values the import takes from the environment, by position of the
      object in the array: `uuid()` and `new Date().toISOString()`. */
  datatype Supply = Supply(freshId: nat -> string, timestamp: nat -> string)

  datatype ImportError =
    | NotJson        // `JSON.parse` threw
    | NotAnArray     // "JSON muss ein Array sein."
    | Unconvertible  // `String(...)` or `Number(...)` threw a TypeError
    | NoValidPlaces  // "Keine gültigen Orte gefunden."

  /** `String(x[key] || "")`. */
  function TextField(c: Coercions, x: Value, key: string): string {
    ToString(c, Or(Get(x, key), Str("")))
  }

  /** Whether building the record from `x` throws, because a field passed
      to `String` or `Number` cannot be converted. The link is exempt: it
      is converted by `new URL` inside `sanitizeUrl`'s own `try`, so a link
      that cannot be converted reads as "". */
  predicate NormalizeThrows(x: Value) {
    || ConversionThrows(Get(x, "id"))
    || ConversionThrows(Get(x, "title"))
    || ConversionThrows(Get(x, "photo"))
    || ConversionThrows(Get(x, "note"))
    || ConversionThrows(Get(x, "lat"))
    || ConversionThrows(Get(x, "lng"))
    || ConversionThrows(Get(x, "createdAt"))
    || ConversionThrows(Get(x, "updatedAt"))
  }

  /** Whether the `map` over the objects of `data` throws. */
  predicate ImportThrows(data: seq<Value>) {
    exists x :: x in data && NormalizeThrows(x)
  }

  /** The record built from one imported object, for an object on which
      `NormalizeThrows` does not hold. Title and note are cut to their
      maximum lengths, and `openNewTab` is false only for an explicit
      `false`. */
  function NormalizeOne(c: Coercions, parse: Parser, x: Value, freshId: string, now: string): (p: Place)
    ensures |p.title| <= MaxTitle && |p.note| <= MaxNote
    ensures StartsWith(TextField(c, x, "title"), p.title)
    ensures |TextField(c, x, "title")| <= MaxTitle ==> p.title == TextField(c, x, "title")
    ensures |TextField(c, x, "title")| >= MaxTitle ==> |p.title| == MaxTitle
    ensures StartsWith(TextField(c, x, "note"), p.note)
    ensures |TextField(c, x, "note")| <= MaxNote ==> p.note == TextField(c, x, "note")
    ensures |TextField(c, x, "note")| >= MaxNote ==> |p.note| == MaxNote
    ensures Truthy(Get(x, "id")) ==> p.id == ToString(c, Get(x, "id"))
    ensures !Truthy(Get(x, "id")) ==> p.id == freshId
    ensures Truthy(Get(x, "createdAt")) ==> p.createdAt == ToString(c, Get(x, "createdAt"))
    ensures !Truthy(Get(x, "createdAt")) ==> p.createdAt == now
    ensures p.updatedAt.Some? <==> Truthy(Get(x, "updatedAt"))
    ensures !p.openNewTab <==> Get(x, "openNewTab") == Bool(false)
    ensures ConversionThrows(Get(x, "url")) ==> p.url == ""
    ensures Canonical(parse) ==> SanitizeUrl(parse, p.url) == p.url
  {
    SanitizedUrlIsFixed(parse, TextField(c, x, "url"));
    Place(
      id := ToString(c, Or(Get(x, "id"), Str(freshId))),
      title := Take(TextField(c, x, "title"), MaxTitle),
      url := if ConversionThrows(Get(x, "url")) then "" else SanitizeUrl(parse, TextField(c, x, "url")),
      photo := TextField(c, x, "photo"),
      note := Take(TextField(c, x, "note"), MaxNote),
      openNewTab := Get(x, "openNewTab") != Bool(false),
      lat := ToNumber(c, Get(x, "lat")),
      lng := ToNumber(c, Get(x, "lng")),
      createdAt := if Truthy(Get(x, "createdAt")) then ToString(c, Get(x, "createdAt")) else now,
      updatedAt := if Truthy(Get(x, "updatedAt")) then Some(ToString(c, Get(x, "updatedAt"))) else None)
  }

  lemma SanitizedUrlIsFixed(parse: Parser, raw: string)
    ensures Canonical(parse) ==> SanitizeUrl(parse, SanitizeUrl(parse, raw)) == SanitizeUrl(parse, raw)
  {
    if Canonical(parse) {
      SanitizeIdempotent(parse, raw);
    }
  }

  /** The second filter of the normaliser. */
  predicate Survives(p: Place) {
    p.title != "" && IsFinite(p.lat) && IsFinite(p.lng)
  }

  /** What every imported record satisfies. */
  predicate WellFormed(p: Place) {
    && 0 < |p.title| <= MaxTitle
    && |p.note| <= MaxNote
    && IsFinite(p.lat)
    && IsFinite(p.lng)
  }

  /** The objects of the array (`x && typeof x === "object"`), in order. */
  function Objects(data: seq<Value>): seq<Value> {
    Seqs.Filter(data, (x: Value) => IsObjectLike(x))
  }

  /** The records built from the objects of `data`, before dropping. */
  function Candidates(c: Coercions, parse: Parser, data: seq<Value>, supply: Supply): (r: seq<Place>)
    ensures |r| == |Objects(data)|
    ensures forall k :: 0 <= k < |r| ==>
      r[k] == NormalizeOne(c, parse, Objects(data)[k], supply.freshId(k), supply.timestamp(k))
    ensures forall p :: p in r ==> |p.title| <= MaxTitle && |p.note| <= MaxNote
  {
    var objs := Objects(data);
    var r := seq(|objs|, k requires 0 <= k < |objs| =>
      NormalizeOne(c, parse, objs[k], supply.freshId(k), supply.timestamp(k)));
    assert forall k :: 0 <= k < |r| ==>
      r[k] == NormalizeOne(c, parse, objs[k], supply.freshId(k), supply.timestamp(k));
    r
  }

  /** The candidates that survive, in order. */
  function Survivors(cands: seq<Place>): seq<Place> {
    Seqs.Filter(cands, (p: Place) => Survives(p))
  }

  lemma SurvivorsOf(cands: seq<Place>)
    requires forall p :: p in cands ==> |p.title| <= MaxTitle && |p.note| <= MaxNote
    ensures forall p :: p in Survivors(cands) ==> WellFormed(p)
    ensures forall p :: p in Survivors(cands) <==> p in cands && Survives(p)
    ensures Seqs.IsSubsequence(Survivors(cands), cands)
    ensures forall p :: multiset(Survivors(cands))[p] == if Survives(p) then multiset(cands)[p] else 0
  {
    var keep := (p: Place) => Survives(p);
    Seqs.FilterIsSubsequence(cands, keep);
    forall p
      ensures multiset(Survivors(cands))[p] == if Survives(p) then multiset(cands)[p] else 0
    {
      Seqs.FilterCounts(cands, keep, p);
    }
  }

  /** The normaliser: the candidates that survive, in order. Each is
      well-formed and is the normalisation of one object of `data`. */
  function NormalizeAll(c: Coercions, parse: Parser, data: seq<Value>, supply: Supply): (r: seq<Place>)
    ensures forall p :: p in r ==> WellFormed(p)
    ensures forall p :: p in r <==> p in Candidates(c, parse, data, supply) && Survives(p)
    ensures Seqs.IsSubsequence(r, Candidates(c, parse, data, supply))
    ensures forall p :: multiset(r)[p] == if Survives(p) then multiset(Candidates(c, parse, data, supply))[p] else 0
  {
    var cands := Candidates(c, parse, data, supply);
    SurvivorsOf(cands);
    Survivors(cands)
  }

  /** Reading an import file: refused when the text is not JSON, is not an
      array, holds an object whose fields cannot be converted, or has no
      surviving record; otherwise the surviving records. */
  function ReadImport(c: Coercions, parse: Parser, json: Option<Value>, supply: Supply)
    : (r: Result<seq<Place>, ImportError>)
    ensures json.None? <==> r == Failure(NotJson)
    ensures json.Some? && !json.value.Array? <==> r == Failure(NotAnArray)
    ensures r == Failure(Unconvertible) <==>
      json.Some? && json.value.Array? && ImportThrows(json.value.elems)
    ensures r.Success? ==>
      && json.Some? && json.value.Array? && !ImportThrows(json.value.elems)
      && r.value == NormalizeAll(c, parse, json.value.elems, supply)
    ensures r.Success? ==> |r.value| > 0
    ensures r.Success? ==> forall p :: p in r.value ==> WellFormed(p)
    ensures json.Some? && json.value.Array? && !ImportThrows(json.value.elems)
      && NormalizeAll(c, parse, json.value.elems, supply) == []
      ==> r == Failure(NoValidPlaces)
    ensures json.Some? && json.value.Array? && !ImportThrows(json.value.elems)
      && NormalizeAll(c, parse, json.value.elems, supply) != []
      ==> r == Success(NormalizeAll(c, parse, json.value.elems, supply))
  {
    match json
    case None => Failure(NotJson)
    case Some(v) =>
      if !v.Array? then Failure(NotAnArray)
      else if ImportThrows(v.elems) then Failure(Unconvertible)
      else
        var normalized := NormalizeAll(c, parse, v.elems, supply);
        if |normalized| == 0 then Failure(NoValidPlaces) else Success(normalized)
  }

  // ---------------------------------------------------------------------
  // Export

  /** `JSON.stringify` of one record, as the JSON value it denotes: a
      non-finite number is written as `null`, an absent `updatedAt` is
      left out. */
  function ToJson(p: Place): Value {
    var fields := map[
      "id" := Str(p.id),
      "title" := Str(p.title),
      "url" := Str(p.url),
      "photo" := Str(p.photo),
      "note" := Str(p.note),
      "openNewTab" := Bool(p.openNewTab),
      "lat" := if IsFinite(p.lat) then Number(p.lat) else Null,
      "lng" := if IsFinite(p.lng) then Number(p.lng) else Null,
      "createdAt" := Str(p.createdAt)];
    Object(if p.updatedAt.Some? then fields["updatedAt" := Str(p.updatedAt.value)] else fields)
  }

  /** The exported file's content. */
  function Export(ps: seq<Place>): Value {
    Array(seq(|ps|, k requires 0 <= k < |ps| => ToJson(ps[k])))
  }

  /** A record that an export followed by an import reproduces: it has an
      id, a created-at stamp, no empty updated-at, a canonical link and
      the shape every import produces. */
  predicate Portable(parse: Parser, p: Place) {
    && WellFormed(p)
    && p.id != ""
    && p.createdAt != ""
    && p.updatedAt != Some("")
    && SanitizeUrl(parse, p.url) == p.url
  }

  lemma NormalizeToJson(c: Coercions, parse: Parser, p: Place, freshId: string, now: string)
    requires Portable(parse, p)
    ensures NormalizeOne(c, parse, ToJson(p), freshId, now) == p
  {
    var x := ToJson(p);
    var q := NormalizeOne(c, parse, x, freshId, now);
    JsonFields(p);
    assert q.id == p.id;
    assert q.title == p.title;
    assert q.url == p.url by {
      if p.url == "" { assert TextField(c, x, "url") == ""; }
    }
    assert q.photo == p.photo;
    assert q.note == p.note;
    assert q.lat == p.lat && q.lng == p.lng;
    assert q.createdAt == p.createdAt;
    assert q.updatedAt == p.updatedAt;
  }

  /** What reading each key of an exported record gives. */
  lemma JsonFields(p: Place)
    ensures var x := ToJson(p);
      && Get(x, "id") == Str(p.id)
      && Get(x, "title") == Str(p.title)
      && Get(x, "url") == Str(p.url)
      && Get(x, "photo") == Str(p.photo)
      && Get(x, "note") == Str(p.note)
      && Get(x, "openNewTab") == Bool(p.openNewTab)
      && (IsFinite(p.lat) ==> Get(x, "lat") == Number(p.lat))
      && (IsFinite(p.lng) ==> Get(x, "lng") == Number(p.lng))
      && Get(x, "createdAt") == Str(p.createdAt)
      && Get(x, "updatedAt") == (if p.updatedAt.Some? then Str(p.updatedAt.value) else Undefined)
  {
  }

  /** Every field of an exported record is a string, number, boolean or
      `null`, so building a record from it never throws. */
  lemma JsonConverts(p: Place)
    ensures !NormalizeThrows(ToJson(p))
  {
    JsonFields(p);
  }

  lemma ExportConverts(ps: seq<Place>)
    ensures !ImportThrows(Export(ps).elems)
  {
    var data := Export(ps).elems;
    forall k | 0 <= k < |data|
      ensures !NormalizeThrows(data[k])
    {
      JsonConverts(ps[k]);
    }
  }

  /** Exporting a non-empty collection of portable records and importing
      the file in replace mode gives the same collection back. */
  lemma ExportImportRoundTrip(c: Coercions, parse: Parser, ps: seq<Place>, supply: Supply)
    requires |ps| > 0
    requires forall p :: p in ps ==> Portable(parse, p)
    ensures ReadImport(c, parse, Some(Export(ps)), supply) == Success(ps)
  {
    var data := Export(ps).elems;
    ExportConverts(ps);
    Seqs.FilterKeepsAll(data, (x: Value) => IsObjectLike(x));
    var cands := Candidates(c, parse, data, supply);
    forall k | 0 <= k < |ps| ensures cands[k] == ps[k] {
      NormalizeToJson(c, parse, ps[k], supply.freshId(k), supply.timestamp(k));
    }
    assert cands == ps;
    Seqs.FilterKeepsAll(cands, (p: Place) => Survives(p));
  }
}

=== FILE: js.dfy ===
/** The slice of JavaScript's value model that the import path touches:
    values produced by `JSON.parse`, property access, truthiness, `||`, and
    the `String(...)` / `Number(...)` coercions. Converting between numbers
    and their decimal text is floating-point work and is supplied by the
    caller as a pair of functions. */
module Js {

  /** An IEEE double as far as the core cares: finite, NaN or infinite. */
  datatype Num = Finite(value: real) | NaN | Infinity(negative: bool)

  /** `Number.isFinite` on a number. */
  predicate IsFinite(n: Num) {
    n.Finite?
  }

  datatype Value =
    | Undefined
    | Null
    | Bool(b: bool)
    | Number(n: Num)
    | Str(s: string)
    | Array(elems: seq<Value>)
    | Object(fields: map<string, Value>)

  /** The number/text conversions of the host: `String(n)` on a number and
      `Number(s)` on a string. */
  datatype Coercions = Coercions(numberToString: Num -> string, stringToNumber: string -> Num)

  /** JavaScript truthiness. */
  predicate Truthy(v: Value) {
    match v
    case Undefined => false
    case Null => false
    case Bool(b) => b
    case Number(n) => n.Infinity? || (n.Finite? && n.value != 0.0)
    case Str(s) => s != ""
    case Array(_) => true
    case Object(_) => true
  }

  /** `a || b`. */
  function Or(a: Value, b: Value): Value {
    if Truthy(a) then a else b
  }

  /** `x && typeof x === "object"`: arrays and plain objects, never null. */
  predicate IsObjectLike(v: Value) {
    v.Array? || v.Object?
  }

  /** `x[key]` for one of the record's named keys; arrays and primitives
      have no such own property, so the read gives `undefined`. */
  function Get(v: Value, key: string): Value {
    if v.Object? && key in v.fields then v.fields[key] else Undefined
  }

  /** Whether `String(v)` and `Number(v)` throw a TypeError. JSON values
      hold no functions, so an object with its own `toString` key has no
      callable method left to produce a primitive: the inherited `valueOf`
      returns the object itself. An own `valueOf` key changes nothing,
      because the inherited `toString` still answers. An array converts
      through `join`, so it throws when one of its elements does. */
  predicate ConversionThrows(v: Value) {
    match v
    case Object(fields) => "toString" in fields
    case Array(es) => exists i :: 0 <= i < |es| && ConversionThrows(es[i])
    case _ => false
  }

  /** `String(v)`, where it does not throw. Arrays join their elements with
      commas, writing `null` and `undefined` elements as nothing. */
  function ToString(c: Coercions, v: Value): string {
    match v
    case Undefined => "undefined"
    case Null => "null"
    case Bool(b) => if b then "true" else "false"
    case Number(n) => c.numberToString(n)
    case Str(s) => s
    case Array(es) =>
      Join(seq(|es|, i requires 0 <= i < |es| =>
        if es[i].Undefined? || es[i].Null? then "" else ToString(c, es[i])))
    case Object(_) => "[object Object]"
  }

  function Join(parts: seq<string>): string {
    if |parts| == 0 then ""
    else if |parts| == 1 then parts[0]
    else parts[0] + "," + Join(parts[1..])
  }

  /** `Number(v)`, where it does not throw. */
  function ToNumber(c: Coercions, v: Value): Num {
    match v
    case Undefined => NaN
    case Null => Finite(0.0)
    case Bool(b) => Finite(if b then 1.0 else 0.0)
    case Number(n) => n
    case Str(s) => c.stringToNumber(s)
    case Array(_) => c.stringToNumber(ToString(c, v))
    case Object(_) => NaN
  }
}

=== FILE: places.dfy ===
/** The place record and the lookups by id that every transition starts with
    (`places.find(x => x.id === id)` and `places.findIndex(...)`). */
module Places {
  import opened Wrappers
  import opened Js
  import Seqs

  /** One bookmarked location. Text fields are strings; a text field that a
      stored record lacks is represented by "", as the filter, the sort and
      the edit form read it (`p.title || ""`); `escapeHtml` would print it as
      "undefined" instead. `updatedAt` is absent until the first edit. */
  datatype Place = Place(
    id: string,
    title: string,
    url: string,
    photo: string,
    note: string,
    openNewTab: bool,
    lat: Num,
    lng: Num,
    createdAt: string,
    updatedAt: Option<string>)

  predicate HasId(ps: seq<Place>, id: string) {
    exists k :: 0 <= k < |ps| && ps[k].id == id
  }

  function IdIs(id: string): Place -> bool {
    (p: Place) => p.id == id
  }

  /** Position `k` holds the first record with this id. */
  predicate FirstWithId(ps: seq<Place>, id: string, k: int) {
    && 0 <= k < |ps|
    && ps[k].id == id
    && forall j :: 0 <= j < k ==> ps[j].id != id
  }

  /** `places.findIndex(x => x.id === id)`. */
  function IndexOfId(ps: seq<Place>, id: string): (r: Option<nat>)
    ensures r.Some? <==> HasId(ps, id)
    ensures r.Some? ==> FirstWithId(ps, id, r.value)
  {
    Seqs.FirstIndex(ps, IdIs(id))
  }

  /** `places.find(x => x.id === id)`: the first record with that id. */
  function FindById(ps: seq<Place>, id: string): (r: Option<Place>)
    ensures r.Some? <==> HasId(ps, id)
    ensures r.Some? ==> r.value in ps && r.value.id == id
    ensures r.Some? ==> exists k :: FirstWithId(ps, id, k) && ps[k] == r.value
  {
    match IndexOfId(ps, id)
    case Some(k) => Some(ps[k])
    case None => None
  }

  /** `findIndex` finds the first position holding the id. */
  lemma IndexOfFirst(ps: seq<Place>, id: string, k: int)
    requires FirstWithId(ps, id, k)
    ensures IndexOfId(ps, id) == Some(k)
  {
    assert FirstWithId(ps, id, IndexOfId(ps, id).value);
  }

  /** The ids present in a collection. */
  function Ids(ps: seq<Place>): set<string> {
    set p | p in ps :: p.id
  }
}

=== FILE: scenarios.dfy ===
/** Concrete instances of the model: a three-object import of which one
    record survives, a file refused because `String` throws on a field,
    and the input that strands the selection after a replacing import as
    written. */
module Scenarios {
  import opened Wrappers
  import opened Js
  import opened Urls
  import opened Places
  import opened Importer
  import opened Store
  import Seqs

  function Obj(title: string, lat: Value, lng: Value): Value {
    Object(map["title" := Str(title), "lat" := lat, "lng" := lng])
  }

  /** The record built from `Obj(title, lat, lng)` keeps the title and
      coordinates (the title being short). */
  lemma ObjFields(c: Coercions, parse: Parser, title: string, lat: Value, lng: Value, id: string, now: string)
    requires |title| <= MaxTitle
    ensures var p := NormalizeOne(c, parse, Obj(title, lat, lng), id, now);
      p.title == title && p.lat == ToNumber(c, lat) && p.lng == ToNumber(c, lng)
  {
    var x := Obj(title, lat, lng);
    assert Get(x, "title") == Str(title);
    assert Get(x, "lat") == lat;
    assert Get(x, "lng") == lng;
  }

  /** Building a record from `Obj(title, lat, lng)` does not throw when
      the coordinates convert. */
  lemma ObjConverts(title: string, lat: Value, lng: Value)
    requires !ConversionThrows(lat) && !ConversionThrows(lng)
    ensures !NormalizeThrows(Obj(title, lat, lng))
  {
    var x := Obj(title, lat, lng);
    assert Get(x, "title") == Str(title);
    assert Get(x, "lat") == lat && Get(x, "lng") == lng;
    assert Get(x, "id") == Get(x, "photo") == Get(x, "note") == Undefined;
    assert Get(x, "createdAt") == Get(x, "updatedAt") == Undefined;
  }

  /** Filtering three records of which only the first is kept. */
  lemma FilterFirstOfThree<T(!new)>(a: T, b: T, d: T, keep: T -> bool)
    requires keep(a) && !keep(b) && !keep(d)
    ensures Seqs.Filter([a, b, d], keep) == [a]
  {
    assert Seqs.Filter([d], keep) == [] by {
      assert [d][1..] == [];
    }
    assert Seqs.Filter([b, d], keep) == [] by {
      assert [b, d][1..] == [d];
    }
    assert [a, b, d][1..] == [b, d];
  }

  /** Three objects: one good object, one without a title, one
      whose latitude is the text "x". */
  function ThreeObjects(): seq<Value> {
    [Obj("A", Number(Finite(1.0)), Number(Finite(2.0))),
     Obj("", Number(Finite(1.0)), Number(Finite(2.0))),
     Obj("B", Str("x"), Number(Finite(2.0)))]
  }

  lemma ThreeObjectsAreObjects()
    ensures Objects(ThreeObjects()) == ThreeObjects()
  {
    Seqs.FilterKeepsAll(ThreeObjects(), (x: Value) => IsObjectLike(x));
  }

  lemma ThreeObjectsConvert()
    ensures !ImportThrows(ThreeObjects())
  {
    var xs := ThreeObjects();
    ObjConverts("A", Number(Finite(1.0)), Number(Finite(2.0)));
    ObjConverts("", Number(Finite(1.0)), Number(Finite(2.0)));
    ObjConverts("B", Str("x"), Number(Finite(2.0)));
    assert forall x :: x in xs ==> !NormalizeThrows(x);
  }

  function Built(c: Coercions, parse: Parser, supply: Supply, k: nat): Place
    requires k < 3
  {
    NormalizeOne(c, parse, ThreeObjects()[k], supply.freshId(k), supply.timestamp(k))
  }

  lemma SeqOfThree<T>(s: seq<T>, a: T, b: T, d: T)
    requires |s| == 3 && s[0] == a && s[1] == b && s[2] == d
    ensures s == [a, b, d]
  {
  }

  /** The candidates of three objects are their three normalisations. */
  lemma CandidatesOfThree(c: Coercions, parse: Parser, xs: seq<Value>, supply: Supply)
    requires |xs| == 3 && Objects(xs) == xs
    ensures Candidates(c, parse, xs, supply)
         == [NormalizeOne(c, parse, xs[0], supply.freshId(0), supply.timestamp(0)),
             NormalizeOne(c, parse, xs[1], supply.freshId(1), supply.timestamp(1)),
             NormalizeOne(c, parse, xs[2], supply.freshId(2), supply.timestamp(2))]
  {
    var cands := Candidates(c, parse, xs, supply);
    SeqOfThree(cands, cands[0], cands[1], cands[2]);
  }

  lemma ThreeCandidates(c: Coercions, parse: Parser, supply: Supply)
    ensures Candidates(c, parse, ThreeObjects(), supply)
         == [Built(c, parse, supply, 0), Built(c, parse, supply, 1), Built(c, parse, supply, 2)]
  {
    ThreeObjectsAreObjects();
    CandidatesOfThree(c, parse, ThreeObjects(), supply);
  }

  lemma BuiltFields(c: Coercions, parse: Parser, supply: Supply, k: nat)
    requires k < 3
    ensures var x := ThreeObjects()[k];
      var p := Built(c, parse, supply, k);
      p.title == x.fields["title"].s && p.lat == ToNumber(c, x.fields["lat"]) && p.lng == ToNumber(c, x.fields["lng"])
  {
    var x := ThreeObjects()[k];
    ObjFields(c, parse, x.fields["title"].s, x.fields["lat"], x.fields["lng"], supply.freshId(k), supply.timestamp(k));
  }

  lemma ThreeSurvivors(c: Coercions, parse: Parser, supply: Supply)
    requires !IsFinite(c.stringToNumber("x"))
    ensures Built(c, parse, supply, 0).title == "A" && Survives(Built(c, parse, supply, 0))
    ensures !Survives(Built(c, parse, supply, 1)) && !Survives(Built(c, parse, supply, 2))
  {
    BuiltFields(c, parse, supply, 0);
    BuiltFields(c, parse, supply, 1);
    BuiltFields(c, parse, supply, 2);
  }

  /** Only the first of the three objects survives normalisation, and it is the
      one record imported. */
  lemma ImportKeepsOnlyValid(c: Coercions, parse: Parser, supply: Supply)
    requires !IsFinite(c.stringToNumber("x"))
    ensures var r := ReadImport(c, parse, Some(Array(ThreeObjects())), supply);
      r.Success? && |r.value| == 1 && r.value[0].title == "A"
  {
    ThreeObjectsConvert();
    ThreeCandidates(c, parse, supply);
    ThreeSurvivors(c, parse, supply);
    FilterFirstOfThree(Built(c, parse, supply, 0), Built(c, parse, supply, 1), Built(c, parse, supply, 2),
                       (p: Place) => Survives(p));
  }

  /** A one-record import file whose record has id "b". */
  function ImportOfB(): Payload {
    Parsed(Array([Object(map["id" := Str("b"), "title" := Str("B"),
                             "lat" := Number(Finite(1.0)), "lng" := Number(Finite(2.0))])]))
  }

  lemma ImportOfBConverts()
    ensures !ImportThrows(ImportOfB().json.elems)
  {
    var x := ImportOfB().json.elems[0];
    assert Get(x, "id") == Str("b") && Get(x, "title") == Str("B");
    assert Get(x, "lat") == Number(Finite(1.0)) && Get(x, "lng") == Number(Finite(2.0));
    assert Get(x, "photo") == Get(x, "note") == Undefined;
    assert Get(x, "createdAt") == Get(x, "updatedAt") == Undefined;
  }

  /** A file of one object whose record survives imports that record. */
  lemma OneRecordImport(c: Coercions, parse: Parser, x: Value, supply: Supply)
    requires IsObjectLike(x) && !NormalizeThrows(x)
    requires Survives(NormalizeOne(c, parse, x, supply.freshId(0), supply.timestamp(0)))
    ensures ReadImport(c, parse, Some(Array([x])), supply)
         == Success([NormalizeOne(c, parse, x, supply.freshId(0), supply.timestamp(0))])
  {
    var p := NormalizeOne(c, parse, x, supply.freshId(0), supply.timestamp(0));
    assert Objects([x]) == [x] by {
      Seqs.FilterKeepsAll([x], (v: Value) => IsObjectLike(v));
    }
    var cands := Candidates(c, parse, [x], supply);
    assert cands == [p] by {
      assert |cands| == 1 && cands[0] == p;
    }
    assert Seqs.Filter([p], (q: Place) => Survives(q)) == [p] by {
      assert [p][1..] == [];
    }
  }

  lemma ImportOfBReads(c: Coercions, parse: Parser, supply: Supply)
    ensures var r := ReadImport(c, parse, Some(ImportOfB().json), supply);
      r.Success? && |r.value| == 1 && r.value[0].id == "b"
  {
    var x := ImportOfB().json.elems[0];
    ImportOfBConverts();
    assert Get(x, "id") == Str("b") && Get(x, "title") == Str("B");
    assert Get(x, "lat") == Number(Finite(1.0)) && Get(x, "lng") == Number(Finite(2.0));
    var p := NormalizeOne(c, parse, x, supply.freshId(0), supply.timestamp(0));
    assert p.id == "b" && Survives(p);
    assert ImportOfB().json == Array([x]);
    OneRecordImport(c, parse, x, supply);
  }

  /** The file `[{"title": {"toString": 0}, "lat": 1, "lng": 2}]`: the
      title is an object with its own `toString` key. */
  function ToStringTitle(): Value {
    Array([Object(map["title" := Object(map["toString" := Number(Finite(0.0))]),
                      "lat" := Number(Finite(1.0)), "lng" := Number(Finite(2.0))])])
  }

  /** `String` throws on that title, so the whole file is refused and the
      collection is left as it was, although the record has finite
      coordinates. */
  lemma ToStringKeyRefused(c: Coercions, parse: Parser, st: State, replace: bool, supply: Supply)
    ensures ReadImport(c, parse, Some(ToStringTitle()), supply) == Failure(Unconvertible)
    ensures ImportFileAsWritten(c, parse, st, Parsed(ToStringTitle()), replace, supply)
         == (st, Some(Unconvertible))
  {
    var x := ToStringTitle().elems[0];
    assert Get(x, "title") == Object(map["toString" := Number(Finite(0.0))]);
    assert x in ToStringTitle().elems && NormalizeThrows(x);
  }

  /** As written, replacing a collection whose selected record has id "a"
      with the records of `ImportOfB` leaves the selection naming a record
      that no longer exists; the repaired handler clears it. */
  lemma ReplaceImportStrandsSelection(c: Coercions, parse: Parser, supply: Supply, a: Place)
    requires a.id == "a"
    ensures var st := State([a], Some("a"));
      var written := ImportFileAsWritten(c, parse, st, ImportOfB(), true, supply);
      var repaired := ImportFile(c, parse, st, ImportOfB(), true, supply);
      && SelectionValid(st)
      && written.1.None? && written.0.selected == Some("a") && !SelectionValid(written.0)
      && repaired.0.places == written.0.places && repaired.0.selected == None
  {
    ImportOfBReads(c, parse, supply);
    var st := State([a], Some("a"));
    assert st.places[0].id == "a";
    var written := ImportFileAsWritten(c, parse, st, ImportOfB(), true, supply);
    assert written.0.places[0].id == "b";
  }
}

=== FILE: seqs.dfy ===
/** Sequence helpers: `Array.prototype.filter`, used by the text filter, the
    delete and the import paths, and `findIndex`, used by every lookup by
    id and by `URLSearchParams.get`. */
module Seqs {
  import opened Wrappers

  /** `Array.prototype.findIndex` (and `find`): the position of the first
      element `p` accepts, or `None` when there is none. */
  function FirstIndex<T>(s: seq<T>, p: T -> bool): (r: Option<nat>)
    ensures r.Some? ==> r.value < |s| && p(s[r.value])
    ensures r.Some? ==> forall k :: 0 <= k < r.value ==> !p(s[k])
    ensures r.None? ==> forall k :: 0 <= k < |s| ==> !p(s[k])
  {
    if s == [] then None
    else if p(s[0]) then Some(0)
    else match FirstIndex(s[1..], p)
      case Some(k) => Some(k + 1)
      case None => None
  }

  /** `r` can be obtained from `s` by deleting elements, keeping the order. */
  ghost predicate IsSubsequence<T>(r: seq<T>, s: seq<T>)
    decreases |s|
  {
    if r == [] then true
    else if s == [] then false
    else (r[0] == s[0] && IsSubsequence(r[1..], s[1..])) || IsSubsequence(r, s[1..])
  }

  /** `Array.prototype.filter`: the elements of `s` that `keep` accepts, in
      their original order and with their multiplicities. */
  function Filter<T(!new)>(s: seq<T>, keep: T -> bool): (r: seq<T>)
    ensures |r| <= |s|
    ensures forall x :: x in r <==> x in s && keep(x)
  {
    if s == [] then []
    else
      var rest := Filter(s[1..], keep);
      assert s == [s[0]] + s[1..];
      if keep(s[0]) then [s[0]] + rest else rest
  }

  /** Filtering distributes over concatenation. */
  lemma {:induction false} FilterAppend<T(!new)>(a: seq<T>, b: seq<T>, keep: T -> bool)
    ensures Filter(a + b, keep) == Filter(a, keep) + Filter(b, keep)
  {
    if a == [] {
      assert a + b == b;
    } else {
      var ab := a + b;
      assert ab[0] == a[0];
      assert ab[1..] == a[1..] + b;
      FilterAppend(a[1..], b, keep);
      var ra := Filter(a[1..], keep);
      var rb := Filter(b, keep);
      if keep(a[0]) {
        assert Filter(ab, keep) == [a[0]] + (ra + rb);
        assert Filter(a, keep) == [a[0]] + ra;
      } else {
        assert Filter(ab, keep) == ra + rb;
        assert Filter(a, keep) == ra;
      }
    }
  }

  /** The filter result keeps the original order: it is a subsequence of its input. */
  lemma {:induction false} FilterIsSubsequence<T(!new)>(s: seq<T>, keep: T -> bool)
    ensures IsSubsequence(Filter(s, keep), s)
  {
    if s != [] {
      FilterIsSubsequence(s[1..], keep);
      var rest := Filter(s[1..], keep);
      if keep(s[0]) {
        assert Filter(s, keep) == [s[0]] + rest;
        assert ([s[0]] + rest)[1..] == rest;
      } else {
        assert Filter(s, keep) == rest;
        SubsequenceOfTail(rest, s);
      }
    }
  }

  /** The filter keeps every accepted element as often as it occurs in the input. */
  lemma {:induction false} FilterCounts<T(!new)>(s: seq<T>, keep: T -> bool, x: T)
    ensures multiset(Filter(s, keep))[x] == if keep(x) then multiset(s)[x] else 0
  {
    if s != [] {
      FilterCounts(s[1..], keep, x);
      assert s == [s[0]] + s[1..];
      var rest := Filter(s[1..], keep);
      if keep(s[0]) {
        assert Filter(s, keep) == [s[0]] + rest;
      }
    }
  }

  /** Dropping the head of the longer sequence keeps a subsequence relation. */
  lemma SubsequenceOfTail<T>(r: seq<T>, s: seq<T>)
    requires s != [] && IsSubsequence(r, s[1..])
    ensures IsSubsequence(r, s)
  {
  }

  /** A filter whose predicate accepts every element returns its input. */
  lemma {:induction false} FilterKeepsAll<T(!new)>(s: seq<T>, keep: T -> bool)
    requires forall x :: x in s ==> keep(x)
    ensures Filter(s, keep) == s
  {
    if s != [] {
      FilterKeepsAll(s[1..], keep);
      assert s == [s[0]] + s[1..];
    }
  }
}

=== FILE: store.dfy ===
/** The place collection and the selection as one state, and the user
    actions that change it: select, delete, clear-all, the add/edit form
    and import. Each action either leaves the state alone or changes the
    parts it is about and nothing else. */
module Store {
  import opened Wrappers
  import opened Js
  import opened Text
  import opened Urls
  import opened Places
  import opened Importer
  import Seqs
  import Views

  /** `places` and `selectedId`. */
  datatype State = State(places: seq<Place>, selected: Option<string>)

  /** What `loadPlaces` finds under the collection's key: nothing (or an
      empty text), text that is not JSON, or the JSON value the text
      denotes. */
  datatype Stored = Missing | Unparsable | Json(value: Value)

  /** `savePlaces`: `JSON.stringify` of the collection, kept as the JSON
      value it denotes, which is exactly what the next `JSON.parse` gives. */
  function Save(places: seq<Place>): Stored {
    Json(Export(places))
  }

  /** A string field of a stored record; any other value reads as "". */
  function StoredText(v: Value): string {
    if v.Str? then v.s else ""
  }

  /** The model's reading of one stored record. Text fields are kept as
      they are. `openNewTab` is read by truthiness, as the popups and
      `openLink` read it; the edit form's `!== false` reading of a missing
      flag is not followed. Coordinates are read as `Number` sees them, so
      the `null` that stands for a non-finite number reads as 0. An element
      that is not an object reads as a record of empty fields; the app
      itself fails on such an element when it renders. */
  function FromStored(c: Coercions, v: Value): Place {
    Place(
      id := StoredText(Get(v, "id")),
      title := StoredText(Get(v, "title")),
      url := StoredText(Get(v, "url")),
      photo := StoredText(Get(v, "photo")),
      note := StoredText(Get(v, "note")),
      openNewTab := Truthy(Get(v, "openNewTab")),
      lat := ToNumber(c, Get(v, "lat")),
      lng := ToNumber(c, Get(v, "lng")),
      createdAt := StoredText(Get(v, "createdAt")),
      updatedAt := if Get(v, "updatedAt").Str? then Some(Get(v, "updatedAt").s) else None)
  }

  /** `loadPlaces`: the stored array, or no places at all when the key is
      missing, its text is not JSON, or the JSON is not an array. */
  function Load(c: Coercions, stored: Stored): (r: seq<Place>)
    ensures !(stored.Json? && stored.value.Array?) ==> r == []
    ensures stored.Json? && stored.value.Array? ==>
      |r| == |stored.value.elems|
      && forall k :: 0 <= k < |r| ==> r[k] == FromStored(c, stored.value.elems[k])
  {
    if stored.Json? && stored.value.Array? then
      var elems := stored.value.elems;
      seq(|elems|, k requires 0 <= k < |elems| => FromStored(c, elems[k]))
    else []
  }

  /** Start-up: load the collection and select its first record, if any. */
  function Init(c: Coercions, stored: Stored): (r: State)
    ensures r.places == Load(c, stored)
    ensures |r.places| == 0 ==> r.selected == None
    ensures |r.places| > 0 ==> r.selected == Some(r.places[0].id)
  {
    var places := Load(c, stored);
    State(places, if |places| > 0 then Some(places[0].id) else None)
  }

  /** A coordinate after a trip through JSON: `JSON.stringify` writes a
      non-finite number as `null`, which `Number` reads as 0. */
  function ThroughJson(n: Num): Num {
    if IsFinite(n) then n else Finite(0.0)
  }

  /** Reading back one saved record gives the record, up to its non-finite
      coordinates. */
  lemma FromStoredToJson(c: Coercions, p: Place)
    ensures FromStored(c, ToJson(p)) == p.(lat := ThroughJson(p.lat), lng := ThroughJson(p.lng))
  {
    JsonFields(p);
    var x := ToJson(p);
    assert Get(x, "lat") == (if IsFinite(p.lat) then Number(p.lat) else Null);
    assert Get(x, "lng") == (if IsFinite(p.lng) then Number(p.lng) else Null);
  }

  /** Loading what was saved gives every record back, except that a
      non-finite coordinate comes back as 0. */
  lemma SaveLoad(c: Coercions, places: seq<Place>)
    ensures |Load(c, Save(places))| == |places|
    ensures forall k :: 0 <= k < |places| ==>
      Load(c, Save(places))[k] == places[k].(lat := ThroughJson(places[k].lat), lng := ThroughJson(places[k].lng))
  {
    forall k | 0 <= k < |places|
      ensures Load(c, Save(places))[k]
           == places[k].(lat := ThroughJson(places[k].lat), lng := ThroughJson(places[k].lng))
    {
      FromStoredToJson(c, places[k]);
    }
  }

  /** With finite coordinates, loading what was saved gives the same collection. */
  lemma SaveLoadFinite(c: Coercions, places: seq<Place>)
    requires forall p :: p in places ==> IsFinite(p.lat) && IsFinite(p.lng)
    ensures Load(c, Save(places)) == places
  {
    SaveLoad(c, places);
    var r := Load(c, Save(places));
    forall k | 0 <= k < |places| ensures r[k] == places[k] {
      assert places[k] in places;
    }
  }

  /** The selection names a record of the collection, or nothing. */
  predicate SelectionValid(st: State) {
    st.selected.None? || HasId(st.places, st.selected.value)
  }

  // ---------------------------------------------------------------------
  // Select

  /** `selectPlace`: an id that is not in the full collection changes
      nothing; any other id becomes the selection, whether or not its
      record passes the current filter. */
  function SelectPlace(st: State, id: string): (r: State)
    ensures !HasId(st.places, id) ==> r == st
    ensures HasId(st.places, id) ==> r.selected == Some(id)
    ensures r.places == st.places
  {
    if FindById(st.places, id).None? then st else st.(selected := Some(id))
  }

  /** The selection step of `applyFilter`, which runs on every search
      keystroke and after every change: it re-selects the selected id, so
      the state it leaves is the state it found. */
  function Refilter(st: State): (r: State)
    ensures r == st
  {
    match st.selected
    case Some(id) => if id != "" then SelectPlace(st, id) else st
    case None => st
  }

  // ---------------------------------------------------------------------
  // Delete and clear

  function IdIsNot(id: string): Place -> bool {
    (p: Place) => p.id != id
  }

  /** `deletePlace`: nothing happens for an unknown id or a declined
      confirmation. Otherwise every record with that id goes, the others
      stay in order, and the selection is dropped only if it was that id. */
  function DeletePlace(st: State, id: string, confirmed: bool): (r: State)
    ensures !HasId(st.places, id) || !confirmed ==> r == st
    ensures HasId(st.places, id) && confirmed ==>
      && (forall p :: p in r.places <==> p in st.places && p.id != id)
      && !HasId(r.places, id)
      && r.selected == (if st.selected == Some(id) then None else st.selected)
  {
    if FindById(st.places, id).None? || !confirmed then st
    else
      var places := Seqs.Filter(st.places, IdIsNot(id));
      assert !HasId(places, id) by {
        forall k | 0 <= k < |places| ensures places[k].id != id {
          assert places[k] in places;
        }
      }
      State(places, if st.selected == Some(id) then None else st.selected)
  }

  /** Deleting keeps the other records in their order and multiplicity. */
  lemma DeleteKeepsOthers(st: State, id: string, p: Place)
    requires HasId(st.places, id) && p.id != id
    ensures Seqs.IsSubsequence(DeletePlace(st, id, true).places, st.places)
    ensures multiset(DeletePlace(st, id, true).places)[p] == multiset(st.places)[p]
  {
    Seqs.FilterIsSubsequence(st.places, IdIsNot(id));
    Seqs.FilterCounts(st.places, IdIsNot(id), p);
  }

  /** The clear-all button: with confirmation the collection is emptied and
      the selection dropped; without it nothing changes. */
  function ClearAll(st: State, confirmed: bool): (r: State)
    ensures !confirmed ==> r == st
    ensures confirmed ==> r.places == [] && r.selected.None?
  {
    if confirmed then State([], None) else st
  }

  // ---------------------------------------------------------------------
  // The add/edit form

  /** The raw values of the form's fields. `placeId` is empty when the form
      was opened to add a place. */
  datatype Form = Form(
    placeId: string,
    lat: string,
    lng: string,
    title: string,
    url: string,
    photo: string,
    note: string,
    openNewTab: bool)

  /** The record an edit leaves at the edited position: the prior record with
      the form's values and a fresh `updatedAt`. */
  function Edited(c: Coercions, parse: Parser, prior: Place, f: Form, now: string): Place {
    prior.(
      title := Trim(f.title),
      url := SanitizeUrl(parse, Trim(f.url)),
      photo := Trim(f.photo),
      note := Trim(f.note),
      openNewTab := f.openNewTab,
      lat := c.stringToNumber(f.lat),
      lng := c.stringToNumber(f.lng),
      updatedAt := Some(now))
  }

  /** The record the add path appends. */
  function Created(c: Coercions, parse: Parser, f: Form, id: string, now: string): Place {
    Place(
      id := id,
      title := Trim(f.title),
      url := SanitizeUrl(parse, Trim(f.url)),
      photo := Trim(f.photo),
      note := Trim(f.note),
      openNewTab := f.openNewTab,
      lat := c.stringToNumber(f.lat),
      lng := c.stringToNumber(f.lng),
      createdAt := now,
      updatedAt := None)
  }

  /** The form's submit handler. An empty trimmed title changes nothing.
      With a place id, the first record with that id is replaced by its
      edited version and selected, or nothing changes when no record has
      that id. Without one, a new record with the supplied id and time is
      appended and selected. */
  function SubmitForm(c: Coercions, parse: Parser, st: State, f: Form, newId: string, now: string)
    : (r: State)
    ensures Trim(f.title) == "" ==> r == st
    ensures Trim(f.title) != "" && Trim(f.placeId) != "" && !HasId(st.places, Trim(f.placeId)) ==> r == st
    ensures Trim(f.title) != "" && Trim(f.placeId) != "" && HasId(st.places, Trim(f.placeId)) ==>
      var idx := IndexOfId(st.places, Trim(f.placeId)).value;
      && |r.places| == |st.places|
      && r.places == st.places[idx := r.places[idx]]
      && r.places[idx] == Edited(c, parse, st.places[idx], f, now)
      && r.selected == Some(Trim(f.placeId))
    ensures Trim(f.title) != "" && Trim(f.placeId) == "" ==>
      && r.places == st.places + [Created(c, parse, f, newId, now)]
      && r.selected == Some(newId)
  {
    if Trim(f.title) == "" then st
    else
      var placeId := Trim(f.placeId);
      if placeId == "" then State(st.places + [Created(c, parse, f, newId, now)], Some(newId))
      else EditById(c, parse, st, placeId, f, now)
  }

  /** The edit branch of the submit handler. */
  function EditById(c: Coercions, parse: Parser, st: State, id: string, f: Form, now: string)
    : (r: State)
    ensures !HasId(st.places, id) ==> r == st
    ensures HasId(st.places, id) ==>
      var idx := IndexOfId(st.places, id).value;
      && |r.places| == |st.places|
      && r.places == st.places[idx := r.places[idx]]
      && r.places[idx] == Edited(c, parse, st.places[idx], f, now)
      && r.selected == Some(id)
  {
    match IndexOfId(st.places, id)
    case None => st
    case Some(idx) =>
      State(st.places[idx := Edited(c, parse, st.places[idx], f, now)], Some(id))
  }

  /** An edit keeps the record's identity and creation time, takes every
      editable field from the form, and stamps the edit time. */
  lemma EditedFields(c: Coercions, parse: Parser, prior: Place, f: Form, now: string)
    ensures var e := Edited(c, parse, prior, f, now);
      && e.id == prior.id && e.createdAt == prior.createdAt
      && e.updatedAt == Some(now)
      && e.title == Trim(f.title) && e.note == Trim(f.note) && e.photo == Trim(f.photo)
      && e.url == SanitizeUrl(parse, Trim(f.url)) && e.openNewTab == f.openNewTab
      && e.lat == c.stringToNumber(f.lat) && e.lng == c.stringToNumber(f.lng)
  {
  }

  /** The form as `openModal` fills it for editing `p`: its id, its
      coordinates as text, and its own field values. */
  function EditForm(c: Coercions, p: Place): Form {
    Form(p.id, c.numberToString(p.lat), c.numberToString(p.lng),
         p.title, p.url, p.photo, p.note, p.openNewTab)
  }

  /** The edit form of a record with trimmed text, a canonical link and
      coordinates that survive the trip through text edits to the record
      itself, apart from `updatedAt`. */
  lemma EditFormUnchanged(c: Coercions, parse: Parser, p: Place, now: string)
    requires Trimmed(p.title) && Trimmed(p.note) && Trimmed(p.photo) && Trimmed(p.url)
    requires SanitizeUrl(parse, p.url) == p.url
    requires c.stringToNumber(c.numberToString(p.lat)) == p.lat
    requires c.stringToNumber(c.numberToString(p.lng)) == p.lng
    ensures Edited(c, parse, p, EditForm(c, p), now) == p.(updatedAt := Some(now))
  {
    TrimOfTrimmed(p.title);
    TrimOfTrimmed(p.note);
    TrimOfTrimmed(p.photo);
    TrimOfTrimmed(p.url);
  }

  /** Opening the edit form on a record and submitting it unchanged selects
      the record and changes only its `updatedAt`. This needs the record's
      text fields to be trimmed, its link canonical and its coordinates to
      survive the trip through text. */
  lemma EditWithSameValues(c: Coercions, parse: Parser, st: State, p: Place, k: nat,
                           newId: string, now: string)
    requires FirstWithId(st.places, p.id, k) && st.places[k] == p
    requires p.id != "" && Trimmed(p.id) && p.title != "" && Trimmed(p.title)
    requires Trimmed(p.note) && Trimmed(p.photo) && Trimmed(p.url) && SanitizeUrl(parse, p.url) == p.url
    requires c.stringToNumber(c.numberToString(p.lat)) == p.lat
    requires c.stringToNumber(c.numberToString(p.lng)) == p.lng
    ensures SubmitForm(c, parse, st, EditForm(c, p), newId, now)
         == State(st.places[k := p.(updatedAt := Some(now))], Some(p.id))
  {
    TrimOfTrimmed(p.id);
    EditFormUnchanged(c, parse, p, now);
    IndexOfFirst(st.places, p.id, k);
    var f := EditForm(c, p);
    assert Trim(f.placeId) == p.id && Trim(f.title) == p.title;
    var r := SubmitForm(c, parse, st, f, newId, now);
    assert r.places[k] == p.(updatedAt := Some(now));
  }

  // ---------------------------------------------------------------------
  // Import

  /** What the file input delivers. */
  datatype Payload = NoFile | NotJsonText | Parsed(json: Value)

  /** The import handler as written: no file changes nothing; a refused
      file changes nothing and reports why; otherwise the collection is
      replaced by, or extended with, the imported records. The selection
      is not touched. */
  function ImportFileAsWritten(c: Coercions, parse: Parser, st: State, payload: Payload,
                               replace: bool, supply: Supply)
    : (r: (State, Option<ImportError>))
    ensures r.1.Some? || payload.NoFile? ==> r.0 == st
    ensures r.0.selected == st.selected
    ensures r.1.None? && !payload.NoFile? ==> payload.Parsed?
    ensures payload.NoFile? ==> r.1 == None
    ensures payload.NotJsonText? ==> r.1 == Some(NotJson)
    ensures payload.Parsed? ==>
      var imported := ReadImport(c, parse, Some(payload.json), supply);
      r.1 == (if imported.Success? then None else Some(imported.error))
    ensures r.1.None? && payload.Parsed? ==>
      var imported := ReadImport(c, parse, Some(payload.json), supply);
      && imported.Success?
      && r.0.places == (if replace then imported.value else st.places + imported.value)
  {
    match payload
    case NoFile => (st, None)
    case NotJsonText => (st, Some(NotJson))
    case Parsed(v) =>
      match ReadImport(c, parse, Some(v), supply)
      case Failure(e) => (st, Some(e))
      case Success(imported) =>
        (st.(places := if replace then imported else st.places + imported), None)
  }

  /** The import handler with the selection repaired: as above, but a
      selection whose record is no longer in the collection is dropped, as
      `setSelected(null)` would. */
  function ImportFile(c: Coercions, parse: Parser, st: State, payload: Payload,
                      replace: bool, supply: Supply)
    : (r: (State, Option<ImportError>))
    ensures r.1.Some? || payload.NoFile? ==> r.0 == st
    ensures r.0.places == ImportFileAsWritten(c, parse, st, payload, replace, supply).0.places
    ensures r.1 == ImportFileAsWritten(c, parse, st, payload, replace, supply).1
    ensures SelectionValid(st) ==> SelectionValid(r.0)
    ensures st.selected.Some? && HasId(r.0.places, st.selected.value) ==> r.0.selected == st.selected
    ensures st.selected.Some? && !HasId(r.0.places, st.selected.value) && r.1.None? && !payload.NoFile?
      ==> r.0.selected == None
    ensures r.0.selected.Some? ==> r.0.selected == st.selected
  {
    var (next, err) := ImportFileAsWritten(c, parse, st, payload, replace, supply);
    if err.None? && !payload.NoFile? && next.selected.Some? && !HasId(next.places, next.selected.value) then
      (next.(selected := None), err)
    else
      (next, err)
  }

  /** Appending keeps a valid selection valid even as written. */
  lemma ImportAppendKeepsSelection(c: Coercions, parse: Parser, st: State, payload: Payload,
                                   supply: Supply)
    requires SelectionValid(st)
    ensures SelectionValid(ImportFileAsWritten(c, parse, st, payload, false, supply).0)
  {
    var r := ImportFileAsWritten(c, parse, st, payload, false, supply);
    if st.selected.Some? && r.0 != st {
      var k :| 0 <= k < |st.places| && st.places[k].id == st.selected.value;
      assert r.0.places[k] == st.places[k];
    }
  }

  // ---------------------------------------------------------------------
  // The selection invariant

  lemma SelectKeepsSelectionValid(st: State, id: string)
    requires SelectionValid(st)
    ensures SelectionValid(SelectPlace(st, id))
  {
  }

  lemma DeleteKeepsSelectionValid(st: State, id: string, confirmed: bool)
    requires SelectionValid(st)
    ensures SelectionValid(DeletePlace(st, id, confirmed))
  {
    var r := DeletePlace(st, id, confirmed);
    if r.selected.Some? && r != st {
      var s := r.selected.value;
      var k :| 0 <= k < |st.places| && st.places[k].id == s;
      assert st.places[k] in r.places;
      var j :| 0 <= j < |r.places| && r.places[j] == st.places[k];
    }
  }

  lemma SubmitKeepsSelectionValid(c: Coercions, parse: Parser, st: State, f: Form, newId: string, now: string)
    requires SelectionValid(st)
    ensures SelectionValid(SubmitForm(c, parse, st, f, newId, now))
  {
    var r := SubmitForm(c, parse, st, f, newId, now);
    if Trim(f.title) != "" && Trim(f.placeId) != "" && HasId(st.places, Trim(f.placeId)) {
      var idx := IndexOfId(st.places, Trim(f.placeId)).value;
      assert r.places[idx].id == Trim(f.placeId);
    } else if Trim(f.title) != "" && Trim(f.placeId) == "" {
      assert r.places[|st.places|].id == newId;
    }
  }

  /** The caller-supplied parts of the environment. */
  datatype Env = Env(coerce: Coercions, parse: Parser)

  /** A user action, with the values the environment supplies for it
      (confirmation answers, fresh ids, clock readings, file contents). */
  datatype Action =
    | Select(id: string)
    | Delete(id: string, confirmed: bool)
    | Submit(form: Form, newId: string, now: string)
    | Import(payload: Payload, replace: bool, supply: Supply)
    | Clear(confirmed: bool)
    | Search

  /** One action, with the import's selection repaired. */
  function Step(env: Env, st: State, a: Action): State {
    match a
    case Select(id) => SelectPlace(st, id)
    case Delete(id, confirmed) => DeletePlace(st, id, confirmed)
    case Submit(f, newId, now) => SubmitForm(env.coerce, env.parse, st, f, newId, now)
    case Import(payload, replace, supply) => ImportFile(env.coerce, env.parse, st, payload, replace, supply).0
    case Clear(confirmed) => ClearAll(st, confirmed)
    case Search => Refilter(st)
  }

  lemma StepKeepsSelectionValid(env: Env, st: State, a: Action)
    requires SelectionValid(st)
    ensures SelectionValid(Step(env, st, a))
  {
    match a
    case Select(id) => SelectKeepsSelectionValid(st, id);
    case Delete(id, confirmed) => DeleteKeepsSelectionValid(st, id, confirmed);
    case Submit(f, newId, now) => SubmitKeepsSelectionValid(env.coerce, env.parse, st, f, newId, now);
    case Import(payload, replace, supply) =>
    case Clear(confirmed) =>
    case Search =>
  }

  /** Start-up followed by a sequence of actions. */
  function Run(env: Env, stored: Stored, actions: seq<Action>): State
    decreases |actions|
  {
    if actions == [] then Init(env.coerce, stored)
    else Step(env, Run(env, stored, actions[..|actions| - 1]), actions[|actions| - 1])
  }

  /** In every reachable state the selection names a record of the
      collection or nothing, so the preview shows a record exactly when the
      selection is a non-empty id. */
  lemma {:induction false} RunKeepsSelectionValid(env: Env, stored: Stored, actions: seq<Action>)
    ensures SelectionValid(Run(env, stored, actions))
    ensures var st := Run(env, stored, actions);
      Views.Preview(st.places, st.selected).Some? <==> st.selected.Some? && st.selected.value != ""
    decreases |actions|
  {
    if actions != [] {
      RunKeepsSelectionValid(env, stored, actions[..|actions| - 1]);
      StepKeepsSelectionValid(env, Run(env, stored, actions[..|actions| - 1]), actions[|actions| - 1]);
    } else {
      var st := Init(env.coerce, stored);
      if |st.places| > 0 {
        assert st.places[0].id == st.selected.value;
      }
    }
  }
}

=== FILE: text.dfy ===
/** The JavaScript string operations the core relies on: `trim`,
    `toLowerCase`, `includes`, `startsWith`-style prefix tests, `slice(0, n)`
    and the code-point order that stands in for `localeCompare`. Strings are
    sequences of Unicode scalar values. */
module Text {

  /** The characters `String.prototype.trim` removes: the ECMAScript
      WhiteSpace and LineTerminator productions. */
  predicate IsWhitespace(c: char) {
    var n := c as int;
    || (9 <= n <= 13)          // TAB, LF, VT, FF, CR
    || n == 0x20 || n == 0xA0 || n == 0x1680
    || (0x2000 <= n <= 0x200A)
    || n == 0x2028 || n == 0x2029 || n == 0x202F || n == 0x205F
    || n == 0x3000 || n == 0xFEFF
  }

  predicate AllWhitespace(s: string) {
    forall k :: 0 <= k < |s| ==> IsWhitespace(s[k])
  }

  /** Drops leading whitespace: what is left is a suffix of `s` that does not
      start with whitespace, and everything dropped was whitespace. */
  function TrimStart(s: string): (r: string)
    ensures |r| <= |s| && r == s[|s| - |r|..]
    ensures AllWhitespace(s[..|s| - |r|])
    ensures r != [] ==> !IsWhitespace(r[0])
  {
    if s != [] && IsWhitespace(s[0]) then
      var r := TrimStart(s[1..]);
      assert s[..|s| - |r|] == [s[0]] + s[1..][..|s| - 1 - |r|];
      r
    else s
  }

  /** Drops trailing whitespace: what is left is a prefix of `s` that does
      not end with whitespace, and everything dropped was whitespace. */
  function TrimEnd(s: string): (r: string)
    ensures |r| <= |s| && r == s[..|r|]
    ensures AllWhitespace(s[|r|..])
    ensures r != [] ==> !IsWhitespace(r[|r| - 1])
  {
    if s != [] && IsWhitespace(s[|s| - 1]) then
      var r := TrimEnd(s[..|s| - 1]);
      assert s[|r|..] == s[..|s| - 1][|r|..] + [s[|s| - 1]];
      r
    else s
  }

  /** `r` is the infix of `s` starting at `i` and everything around it is
      whitespace. */
  predicate TrimmedAt(s: string, r: string, i: int) {
    && 0 <= i <= |s| - |r|
    && r == s[i..i + |r|]
    && AllWhitespace(s[..i])
    && AllWhitespace(s[i + |r|..])
  }

  /** `String.prototype.trim`: the infix of `s` left after removing the
      whitespace at both ends. */
  function Trim(s: string): (r: string)
    ensures exists i :: TrimmedAt(s, r, i)
    ensures r != [] ==> !IsWhitespace(r[0]) && !IsWhitespace(r[|r| - 1])
  {
    var t := TrimStart(s);
    var r := TrimEnd(t);
    var i := |s| - |t|;
    assert s[i + |r|..] == t[|r|..];
    assert TrimmedAt(s, r, i);
    r
  }

  /** Trimming leaves nothing exactly when the string is all whitespace. */
  lemma TrimEmptyIff(s: string)
    ensures Trim(s) == [] <==> AllWhitespace(s)
  {
    var t := TrimStart(s);
    if t == [] {
      assert s[..|s|] == s;
    } else {
      assert !IsWhitespace(s[|s| - |t|]);
      var r := TrimEnd(t);
      assert r != [];
    }
  }

  /** Neither starts nor ends with whitespace. */
  predicate Trimmed(s: string) {
    s == [] || (!IsWhitespace(s[0]) && !IsWhitespace(s[|s| - 1]))
  }

  /** Trimming leaves a trimmed string alone. */
  lemma TrimOfTrimmed(s: string)
    requires Trimmed(s)
    ensures Trim(s) == s
  {
    assert TrimStart(s) == s;
    assert TrimEnd(s) == s;
  }

  /** Trimming twice is trimming once. */
  lemma TrimIdempotent(s: string)
    ensures Trim(Trim(s)) == Trim(s)
  {
    TrimOfTrimmed(Trim(s));
  }

  /** `toLowerCase` on one character (ASCII letters only). */
  function LowerChar(c: char): char {
    if 'A' <= c <= 'Z' then (c as int + 32) as char else c
  }

  function Lower(s: string): (r: string)
    ensures |r| == |s|
  {
    seq(|s|, i requires 0 <= i < |s| => LowerChar(s[i]))
  }

  predicate StartsWith(s: string, prefix: string) {
    |prefix| <= |s| && s[..|prefix|] == prefix
  }

  predicate EndsWith(s: string, suffix: string) {
    |suffix| <= |s| && s[|s| - |suffix|..] == suffix
  }

  /** `q` occurs in `s` at some position: the meaning of `s.includes(q)`. */
  ghost predicate OccursIn(q: string, s: string) {
    exists i :: OccursAt(q, s, i)
  }

  predicate OccursAt(q: string, s: string, i: int) {
    0 <= i <= |s| - |q| && s[i..i + |q|] == q
  }

  /** `String.prototype.includes`, computed by trying each start position. */
  function Contains(s: string, q: string): bool
    decreases |s|
  {
    StartsWith(s, q) || (s != [] && Contains(s[1..], q))
  }

  /** The position scan agrees with the positional definition, both ways. */
  lemma {:induction false} ContainsIff(s: string, q: string)
    ensures Contains(s, q) <==> OccursIn(q, s)
    decreases |s|
  {
    if StartsWith(s, q) {
      assert OccursAt(q, s, 0);
    }
    if s != [] {
      ContainsIff(s[1..], q);
      if OccursIn(q, s[1..]) {
        var i :| OccursAt(q, s[1..], i);
        assert s[1..][i..i + |q|] == s[i + 1..i + 1 + |q|];
        assert OccursAt(q, s, i + 1);
      }
      if OccursIn(q, s) && !StartsWith(s, q) {
        var i :| OccursAt(q, s, i);
        assert i != 0;
        assert s[1..][i - 1..i - 1 + |q|] == s[i..i + |q|];
        assert OccursAt(q, s[1..], i - 1);
      }
    } else if OccursIn(q, s) {
      var i :| OccursAt(q, s, i);
      assert q == [];
    }
  }

  /** `s.slice(0, n)`: at most `n` characters, a prefix of `s`, and `s`
      itself when it is short enough. */
  function Take(s: string, n: nat): (r: string)
    ensures |r| <= n && StartsWith(s, r)
    ensures |s| <= n ==> r == s
    ensures n <= |s| ==> |r| == n
  {
    if |s| <= n then s else s[..n]
  }

  /** Strict code-point order on strings, the stand-in for `localeCompare`. */
  predicate Less(a: string, b: string)
    decreases |a|
  {
    if a == [] then b != []
    else if b == [] then false
    else a[0] < b[0] || (a[0] == b[0] && Less(a[1..], b[1..]))
  }

  lemma {:induction false} LessIrreflexive(a: string)
    ensures !Less(a, a)
    decreases |a|
  {
    if a != [] { LessIrreflexive(a[1..]); }
  }

  lemma {:induction false} LessAsymmetric(a: string, b: string)
    ensures Less(a, b) ==> !Less(b, a)
    decreases |a|
  {
    if a != [] && b != [] { LessAsymmetric(a[1..], b[1..]); }
  }

  lemma {:induction false} LessTotal(a: string, b: string)
    ensures a != b ==> Less(a, b) || Less(b, a)
    decreases |a|
  {
    if a != [] && b != [] && a[0] == b[0] {
      LessTotal(a[1..], b[1..]);
      assert a == [a[0]] + a[1..] && b == [b[0]] + b[1..];
    }
  }

  lemma {:induction false} LessTransitive(a: string, b: string, c: string)
    ensures Less(a, b) && Less(b, c) ==> Less(a, c)
    decreases |a|
  {
    if a != [] && b != [] && c != [] {
      LessTransitive(a[1..], b[1..], c[1..]);
    }
  }
}

=== FILE: urls.dfy ===
/** Link handling: `sanitizeUrl`, the Google Drive share-link rewrite
    (`extractDriveId`, `normalizePhotoUrl`) and the `encodeURIComponent` it
    relies on. The WHATWG URL parser is not modelled: it is a caller-supplied
    function from text to a parsed record. */
module Urls {
  import opened Wrappers
  import opened Text
  import Seqs

  /** The parts of a parsed URL the core reads: its serialisation (`href`),
      `hostname`, `pathname`, and the decoded query pairs in order. */
  datatype Url = Url(href: string, hostname: string, pathname: string, query: seq<(string, string)>)

  /** `new URL(s)`: `None` where the constructor throws. */
  type Parser = string -> Option<Url>

  /** What the WHATWG parser guarantees of a successful parse: its
      serialisation is non-empty and parses back to the same URL. */
  ghost predicate Canonical(parse: Parser) {
    forall s :: parse(s).Some? ==>
      parse(s).value.href != "" && parse(parse(s).value.href) == parse(s)
  }

  /** `sanitizeUrl`: the canonical form of an absolute URL, or "" when the
      input is empty or does not parse. */
  function SanitizeUrl(parse: Parser, raw: string): (r: string)
    ensures raw == "" || parse(raw).None? ==> r == ""
    ensures parse(raw).Some? && raw != "" ==> r == parse(raw).value.href
  {
    if raw == "" then ""
    else match parse(raw)
      case None => ""
      case Some(u) => u.href
  }

  /** Sanitising is idempotent: a sanitised link passes the gate unchanged. */
  lemma SanitizeIdempotent(parse: Parser, raw: string)
    requires Canonical(parse)
    ensures SanitizeUrl(parse, SanitizeUrl(parse, raw)) == SanitizeUrl(parse, raw)
  {
  }

  /** `[a-zA-Z0-9_-]`. */
  predicate IsIdChar(c: char) {
    ('a' <= c <= 'z') || ('A' <= c <= 'Z') || ('0' <= c <= '9') || c == '_' || c == '-'
  }

  /** The greedy `[a-zA-Z0-9_-]*` at the start of `s`: the longest prefix of
      id characters. */
  function IdRun(s: string): (r: string)
    ensures StartsWith(s, r)
    ensures forall k :: 0 <= k < |r| ==> IsIdChar(r[k])
    ensures |r| < |s| ==> !IsIdChar(s[|r|])
  {
    if s != [] && IsIdChar(s[0]) then
      var rest := IdRun(s[1..]);
      assert s[..1 + |rest|] == [s[0]] + s[1..][..|rest|];
      [s[0]] + rest
    else []
  }

  /** The regular expression `\/file\/d\/([a-zA-Z0-9_-]{10,})` tried at
      position `i` of `path`: the captured group, if the attempt succeeds. */
  function MatchAt(path: string, i: nat): Option<string>
    requires i <= |path|
  {
    var tail := path[i..];
    if StartsWith(tail, "/file/d/") then
      var run := IdRun(tail[8..]);
      if |run| >= 10 then Some(run) else None
    else None
  }

  /** The leftmost position at or after `i` where the pattern matches. */
  function FirstMatch(path: string, i: nat): (r: Option<nat>)
    requires i <= |path|
    ensures r.Some? ==> i <= r.value <= |path| && MatchAt(path, r.value).Some?
    ensures r.Some? ==> forall k :: i <= k < r.value ==> MatchAt(path, k).None?
    ensures r.None? ==> forall k :: i <= k <= |path| ==> MatchAt(path, k).None?
    decreases |path| - i
  {
    if MatchAt(path, i).Some? then Some(i)
    else if i == |path| then None
    else FirstMatch(path, i + 1)
  }

  /** `pathname.match(...)[1]`: the group of the leftmost match. */
  function PathDriveId(path: string): Option<string> {
    match FirstMatch(path, 0)
    case Some(j) => MatchAt(path, j)
    case None => None
  }

  /** `URLSearchParams.get(name)`: the value of the first pair with that name. */
  function QueryGet(query: seq<(string, string)>, name: string): Option<string> {
    match Seqs.FirstIndex(query, (kv: (string, string)) => kv.0 == name)
    case Some(k) => Some(query[k].1)
    case None => None
  }

  const DriveHost := "drive.google.com"

  /** `extractDriveId`: the file id of a Google Drive link, or "" when the
      link is empty, does not parse, is not on a host ending in
      `drive.google.com`, or carries neither a `/file/d/<id>` path segment nor
      a non-empty `id` parameter. The path segment wins over the parameter. */
  function ExtractDriveId(parse: Parser, url: string): (r: string)
    ensures r != "" ==> url != "" && parse(url).Some? && EndsWith(parse(url).value.hostname, DriveHost)
    ensures url != "" && parse(url).Some? && EndsWith(parse(url).value.hostname, DriveHost)
      && PathDriveId(parse(url).value.pathname).Some?
      ==> r == PathDriveId(parse(url).value.pathname).value
    ensures url != "" && parse(url).Some? && EndsWith(parse(url).value.hostname, DriveHost)
      && PathDriveId(parse(url).value.pathname).None?
      ==> r == QueryGet(parse(url).value.query, "id").GetOr("")
  {
    if url == "" then ""
    else match parse(url)
      case None => ""
      case Some(u) =>
        if !EndsWith(u.hostname, DriveHost) then ""
        else match PathDriveId(u.pathname)
          case Some(id) => id
          case None => QueryGet(u.query, "id").GetOr("")
  }

  /** A file id taken from the path is at least ten id characters long and
      follows `/file/d/` at the leftmost place where the pattern matches. */
  lemma PathDriveIdShape(path: string)
    requires PathDriveId(path).Some?
    ensures var id := PathDriveId(path).value;
      && |id| >= 10
      && (forall k :: 0 <= k < |id| ==> IsIdChar(id[k]))
      && exists j :: 0 <= j <= |path| && StartsWith(path[j..], "/file/d/" + id)
  {
    var j := FirstMatch(path, 0).value;
    var id := PathDriveId(path).value;
    var tail := path[j..];
    assert StartsWith(tail[8..], id);
    assert tail[..8 + |id|] == tail[..8] + tail[8..][..|id|];
    assert StartsWith(path[j..], "/file/d/" + id);
  }

  /** The run of id characters stops at the first character that is not one. */
  lemma IdRunStopsAt(s: string, n: nat)
    requires n < |s| && !IsIdChar(s[n])
    requires forall k :: 0 <= k < n ==> IsIdChar(s[k])
    ensures IdRun(s) == s[..n]
  {
  }

  /** The pattern can only match where `/f` starts with eight characters to go. */
  lemma MatchNeedsSlashF(path: string, i: nat)
    requires i <= |path| && MatchAt(path, i).Some?
    ensures i + 8 <= |path| && path[i] == '/' && path[i + 1] == 'f'
  {
    assert path[i..][..8] == "/file/d/";
    assert path[i..][0] == path[i] && path[i..][1] == path[i + 1];
  }

  /** No match anywhere from `i` on means the search finds none. */
  lemma {:induction false} NoMatchFrom(path: string, i: nat)
    requires i <= |path|
    requires forall k :: i <= k <= |path| ==> MatchAt(path, k).None?
    ensures FirstMatch(path, i).None?
    decreases |path| - i
  {
    if i < |path| {
      NoMatchFrom(path, i + 1);
    }
  }

  /** The thumbnail endpoint the rewrite targets. */
  function Thumbnail(id: string): string {
    "https://drive.google.com/thumbnail?id=" + EncodeUriComponent(id) + "&sz=w1000"
  }

  /** `normalizePhotoUrl`: "" for an empty or unparsable link, the thumbnail
      URL when a Drive file id is found, and the sanitised link otherwise. */
  function NormalizePhotoUrl(parse: Parser, raw: string): (r: string)
    ensures r == "" <==> SanitizeUrl(parse, raw) == ""
    ensures SanitizeUrl(parse, raw) != "" && ExtractDriveId(parse, SanitizeUrl(parse, raw)) == ""
      ==> r == SanitizeUrl(parse, raw)
    ensures SanitizeUrl(parse, raw) != "" && ExtractDriveId(parse, SanitizeUrl(parse, raw)) != ""
      ==> r == Thumbnail(ExtractDriveId(parse, SanitizeUrl(parse, raw)))
  {
    var clean := SanitizeUrl(parse, raw);
    if clean == "" then ""
    else
      var id := ExtractDriveId(parse, clean);
      if id != "" then Thumbnail(id) else clean
  }

  /** With a canonical parser, a link whose host does not end in
      `drive.google.com` comes back as its sanitised form. */
  lemma NormalizeNonDrive(parse: Parser, raw: string)
    requires Canonical(parse)
    requires raw != "" && parse(raw).Some? && !EndsWith(parse(raw).value.hostname, DriveHost)
    ensures NormalizePhotoUrl(parse, raw) == parse(raw).value.href
  {
  }

  /** With a canonical parser, a Drive link with a `/file/d/<id>` segment
      becomes the thumbnail of that id, whatever its `id` parameter says, and
      the id appears in the thumbnail URL verbatim. */
  lemma NormalizePathWins(parse: Parser, raw: string)
    requires Canonical(parse)
    requires raw != "" && parse(raw).Some? && EndsWith(parse(raw).value.hostname, DriveHost)
    requires PathDriveId(parse(raw).value.pathname).Some?
    ensures var id := PathDriveId(parse(raw).value.pathname).value;
      NormalizePhotoUrl(parse, raw) == "https://drive.google.com/thumbnail?id=" + id + "&sz=w1000"
  {
    var id := PathDriveId(parse(raw).value.pathname).value;
    PathDriveIdShape(parse(raw).value.pathname);
    EncodeUnreservedIdentity(id);
  }

  /** With a canonical parser, a Drive link without a path id but with a
      non-empty `id` parameter becomes the thumbnail of that parameter. */
  lemma NormalizeQueryId(parse: Parser, raw: string)
    requires Canonical(parse)
    requires raw != "" && parse(raw).Some? && EndsWith(parse(raw).value.hostname, DriveHost)
    requires PathDriveId(parse(raw).value.pathname).None?
    requires QueryGet(parse(raw).value.query, "id").GetOr("") != ""
    ensures NormalizePhotoUrl(parse, raw) == Thumbnail(QueryGet(parse(raw).value.query, "id").value)
  {
  }

  // ---------------------------------------------------------------------
  // encodeURIComponent

  /** The characters `encodeURIComponent` leaves alone. */
  predicate Unreserved(c: char) {
    IsIdChar(c) || c == '.' || c == '!' || c == '~' || c == '*' || c == '\'' || c == '(' || c == ')'
  }

  predicate IsByte(b: int) {
    0 <= b < 256
  }

  /** The UTF-8 encoding of one Unicode scalar value. */
  function Utf8(c: char): (bs: seq<int>)
    ensures 1 <= |bs| <= 4
    ensures forall k :: 0 <= k < |bs| ==> IsByte(bs[k])
  {
    var n := c as int;
    if n < 0x80 then [n]
    else if n < 0x800 then [0xC0 + n / 64, 0x80 + n % 64]
    else if n < 0x10000 then [0xE0 + n / 4096, 0x80 + (n / 64) % 64, 0x80 + n % 64]
    else [0xF0 + n / 262144, 0x80 + (n / 4096) % 64, 0x80 + (n / 64) % 64, 0x80 + n % 64]
  }

  /** The digits `encodeURIComponent` writes after `%`. */
  predicate UpperHex(c: char) {
    '0' <= c <= '9' || 'A' <= c <= 'F'
  }

  function HexDigit(d: int): (c: char)
    requires 0 <= d < 16
    ensures IsIdChar(c) && UpperHex(c)
  {
    "0123456789ABCDEF"[d]
  }

  /** `%XX` escapes, upper-case hex, for each byte. */
  function PercentBytes(bs: seq<int>): string
    requires forall k :: 0 <= k < |bs| ==> IsByte(bs[k])
  {
    if bs == [] then []
    else
      assert IsByte(bs[0]);
      ['%', HexDigit(bs[0] / 16), HexDigit(bs[0] % 16)] + PercentBytes(bs[1..])
  }

  function EncodeChar(c: char): string {
    if Unreserved(c) then [c] else PercentBytes(Utf8(c))
  }

  /** `encodeURIComponent`. The result is made of unreserved characters and
      `%XX` escapes, so it cannot close the `id` parameter or start another
      one. */
  function EncodeUriComponent(s: string): (r: string)
    ensures UriSafe(r)
  {
    if s == [] then []
    else
      var e := EncodeChar(s[0]);
      var rest := EncodeUriComponent(s[1..]);
      PercentBytesSafe(Utf8(s[0]));
      UriSafeAppend(e, rest);
      e + rest
  }

  /** An escape `%XX` with upper-case hex digits starts at `k`. */
  predicate EscapeAt(r: string, k: int) {
    0 <= k && k + 2 < |r| && r[k] == '%' && UpperHex(r[k + 1]) && UpperHex(r[k + 2])
  }

  /** Every character is unreserved or the `%` of an escape. */
  predicate UriSafe(r: string) {
    forall k :: 0 <= k < |r| ==> Unreserved(r[k]) || EscapeAt(r, k)
  }

  lemma UriSafeAppend(a: string, b: string)
    requires UriSafe(a) && UriSafe(b)
    ensures UriSafe(a + b)
  {
    var r := a + b;
    forall k | 0 <= k < |r| ensures Unreserved(r[k]) || EscapeAt(r, k) {
      if k < |a| {
        assert r[k] == a[k];
        if EscapeAt(a, k) {
          assert r[k + 1] == a[k + 1] && r[k + 2] == a[k + 2];
        }
      } else {
        var j := k - |a|;
        assert r[k] == b[j];
        if EscapeAt(b, j) {
          assert r[k + 1] == b[j + 1] && r[k + 2] == b[j + 2];
        }
      }
    }
  }

  lemma {:induction false} PercentBytesSafe(bs: seq<int>)
    requires forall k :: 0 <= k < |bs| ==> IsByte(bs[k])
    ensures UriSafe(PercentBytes(bs))
  {
    if bs != [] {
      PercentBytesSafe(bs[1..]);
      assert IsByte(bs[0]);
      var t := ['%', HexDigit(bs[0] / 16), HexDigit(bs[0] % 16)];
      assert EscapeAt(t, 0);
      assert UriSafe(t);
      UriSafeAppend(t, PercentBytes(bs[1..]));
    }
  }

  /** A string of unreserved characters is its own encoding. */
  lemma {:induction false} EncodeUnreservedIdentity(s: string)
    requires forall k :: 0 <= k < |s| ==> IsIdChar(s[k])
    ensures EncodeUriComponent(s) == s
  {
    if s != [] {
      EncodeUnreservedIdentity(s[1..]);
    }
  }

  // ---------------------------------------------------------------------
  // Percent-decoding, the inverse that shows the encoding loses nothing.

  function HexValue(c: char): Option<int> {
    if '0' <= c <= '9' then Some(c as int - '0' as int)
    else if 'A' <= c <= 'F' then Some(c as int - 'A' as int + 10)
    else if 'a' <= c <= 'f' then Some(c as int - 'a' as int + 10)
    else None
  }

  /** The byte written as `%XX` at the start of `s`, if that is what is there. */
  function LeadingByte(s: string): Option<int> {
    if |s| >= 3 && s[0] == '%' && HexValue(s[1]).Some? && HexValue(s[2]).Some? then
      Some(16 * HexValue(s[1]).value + HexValue(s[2]).value)
    else None
  }

  /** `n` consecutive `%XX` escapes at the start of `s`. */
  function ReadBytes(s: string, n: nat): Option<seq<int>>
    decreases n
  {
    if n == 0 then Some([])
    else match LeadingByte(s)
      case None => None
      case Some(b) =>
        match ReadBytes(s[3..], n - 1)
        case None => None
        case Some(bs) => Some([b] + bs)
  }

  /** The length of a UTF-8 sequence announced by its first byte; 0 for a
      byte that cannot start one. */
  function Utf8Length(b: int): nat {
    if 0 <= b < 0x80 then 1
    else if 0xC0 <= b < 0xE0 then 2
    else if 0xE0 <= b < 0xF0 then 3
    else if 0xF0 <= b < 0xF8 then 4
    else 0
  }

  predicate IsContinuation(b: int) {
    0x80 <= b < 0xC0
  }

  /** The scalar value a UTF-8 sequence of length 1 to 4 spells. */
  function Utf8Value(bs: seq<int>): int
    requires 1 <= |bs| <= 4
  {
    if |bs| == 1 then bs[0]
    else if |bs| == 2 then (bs[0] - 0xC0) * 64 + (bs[1] - 0x80)
    else if |bs| == 3 then (bs[0] - 0xE0) * 4096 + (bs[1] - 0x80) * 64 + (bs[2] - 0x80)
    else (bs[0] - 0xF0) * 262144 + (bs[1] - 0x80) * 4096 + (bs[2] - 0x80) * 64 + (bs[3] - 0x80)
  }

  predicate IsScalar(n: int) {
    (0 <= n < 0xD800) || (0xE000 <= n < 0x110000)
  }

  function Prepend(c: char, r: Option<string>): Option<string> {
    match r
    case Some(t) => Some([c] + t)
    case None => None
  }

  /** `decodeURIComponent`, failing (`None`) where it would throw. */
  function PercentDecode(s: string): Option<string>
    decreases |s|
  {
    if s == [] then Some([])
    else if s[0] != '%' then Prepend(s[0], PercentDecode(s[1..]))
    else match LeadingByte(s)
      case None => None
      case Some(b0) =>
        var n := Utf8Length(b0);
        if n == 0 || |s| < 3 * n then None
        else match ReadBytes(s, n)
          case None => None
          case Some(bs) =>
            if |bs| != n || exists k :: 1 <= k < n && !IsContinuation(bs[k]) then None
            else
              var v := Utf8Value(bs);
              if IsScalar(v) then Prepend(v as char, PercentDecode(s[3 * n..])) else None
  }

  lemma HexRoundTrip(b: int)
    requires IsByte(b)
    ensures HexValue(HexDigit(b / 16)) == Some(b / 16)
    ensures HexValue(HexDigit(b % 16)) == Some(b % 16)
  {
  }

  lemma LeadingByteOfEscape(b: int, x: string)
    requires IsByte(b)
    ensures LeadingByte(['%', HexDigit(b / 16), HexDigit(b % 16)] + x) == Some(b)
  {
    HexRoundTrip(b);
    var t := ['%', HexDigit(b / 16), HexDigit(b % 16)] + x;
    assert t[1] == HexDigit(b / 16) && t[2] == HexDigit(b % 16);
  }

  lemma {:induction false} PercentBytesLength(bs: seq<int>)
    requires forall k :: 0 <= k < |bs| ==> IsByte(bs[k])
    ensures |PercentBytes(bs)| == 3 * |bs|
  {
    if bs != [] {
      PercentBytesLength(bs[1..]);
    }
  }

  lemma {:induction false} ReadPercentBytes(bs: seq<int>, rest: string)
    requires forall k :: 0 <= k < |bs| ==> IsByte(bs[k])
    ensures |PercentBytes(bs)| == 3 * |bs|
    ensures ReadBytes(PercentBytes(bs) + rest, |bs|) == Some(bs)
    ensures (PercentBytes(bs) + rest)[3 * |bs|..] == rest
  {
    PercentBytesLength(bs);
    if bs != [] {
      var b := bs[0];
      assert IsByte(b);
      ReadPercentBytes(bs[1..], rest);
      var t := ['%', HexDigit(b / 16), HexDigit(b % 16)];
      var tail := PercentBytes(bs[1..]) + rest;
      var s := PercentBytes(bs) + rest;
      assert s == t + tail;
      LeadingByteOfEscape(b, tail);
      assert s[3..] == tail;
      assert ReadBytes(s, |bs|) == Some([b] + bs[1..]);
      assert [b] + bs[1..] == bs;
    }
  }

  /** The arithmetic behind UTF-8: the lead byte announces the length, the
      other bytes are continuation bytes, and the bytes spell the scalar. */
  lemma Utf8Facts(c: char)
    ensures var bs := Utf8(c);
      && Utf8Length(bs[0]) == |bs|
      && (forall k :: 1 <= k < |bs| ==> IsContinuation(bs[k]))
      && Utf8Value(bs) == c as int
  {
    var n := c as int;
    var a := n / 64;
    var b := a / 64;
    var d := b / 64;
    assert n == 64 * a + n % 64;
    assert a == 64 * b + a % 64;
    assert b == 64 * d + b % 64;
    assert n / 4096 == b;
    assert n / 262144 == d;
  }

  lemma DecodeEncodeChar(c: char, rest: string)
    ensures PercentDecode(EncodeChar(c) + rest) == Prepend(c, PercentDecode(rest))
  {
    var s := EncodeChar(c) + rest;
    if Unreserved(c) {
      assert s[0] == c && s[1..] == rest;
    } else {
      var bs := Utf8(c);
      Utf8Facts(c);
      ReadPercentBytes(bs, rest);
      assert bs == [bs[0]] + bs[1..];
      assert LeadingByte(s) == Some(bs[0]) by {
        HexRoundTrip(bs[0]);
        assert s[..3] == ['%', HexDigit(bs[0] / 16), HexDigit(bs[0] % 16)];
      }
      assert (c as int) as char == c;
    }
  }

  /** Percent-decoding undoes `encodeURIComponent`, so distinct file ids give
      distinct thumbnail links. */
  lemma {:induction false} DecodeEncode(s: string)
    ensures PercentDecode(EncodeUriComponent(s)) == Some(s)
  {
    if s != [] {
      DecodeEncode(s[1..]);
      DecodeEncodeChar(s[0], EncodeUriComponent(s[1..]));
      assert [s[0]] + s[1..] == s;
    }
  }
}

=== FILE: views.dfy ===
/** What the three surfaces show for a given collection, search text and
    selection: the filtered view (`applyFilter`), the card order
    (`renderList`), the marker index (`renderMarkers`) and the preview
    (`setSelected`). */
module Views {
  import opened Wrappers
  import opened Text
  import opened Places
  import Seqs

  // ---------------------------------------------------------------------
  // Filter

  /** The search box text as the filter uses it: trimmed, then lower-cased. */
  function Query(raw: string): string {
    Lower(Trim(raw))
  }

  /** A record matches when its lower-cased title or note contains `q`. */
  predicate Matches(p: Place, q: string) {
    Contains(Lower(p.title), q) || Contains(Lower(p.note), q)
  }

  function MatchesQuery(q: string): Place -> bool {
    (p: Place) => Matches(p, q)
  }

  /** `applyFilter`'s view: the whole collection for a blank query, and
      otherwise exactly the matching records, in collection order. */
  function FilterView(places: seq<Place>, raw: string): (r: seq<Place>)
    ensures Query(raw) == "" ==> r == places
    ensures Query(raw) != "" ==> forall p :: p in r <==> p in places && Matches(p, Query(raw))
  {
    var q := Query(raw);
    if q == "" then places else Seqs.Filter(places, MatchesQuery(q))
  }

  /** The view keeps collection order and every matching record as often as
      it occurs. */
  lemma FilterViewKeepsOrder(places: seq<Place>, raw: string)
    ensures Seqs.IsSubsequence(FilterView(places, raw), places)
    ensures forall p :: p in places && (Query(raw) == "" || Matches(p, Query(raw))) ==>
      multiset(FilterView(places, raw))[p] == multiset(places)[p]
  {
    var q := Query(raw);
    if q == "" {
      Seqs.FilterKeepsAll(places, (p: Place) => true);
      Seqs.FilterIsSubsequence(places, (p: Place) => true);
    } else {
      Seqs.FilterIsSubsequence(places, MatchesQuery(q));
      forall p | p in places && Matches(p, q)
        ensures multiset(FilterView(places, raw))[p] == multiset(places)[p]
      {
        Seqs.FilterCounts(places, MatchesQuery(q), p);
      }
    }
  }

  /** An empty or whitespace-only search shows the whole collection. */
  lemma BlankQueryShowsAll(places: seq<Place>, raw: string)
    requires AllWhitespace(raw)
    ensures FilterView(places, raw) == places
  {
    TrimEmptyIff(raw);
  }

  /** With a non-blank search, a record is shown exactly when the trimmed,
      lower-cased search text occurs in its lower-cased title or note. */
  lemma FilterViewMembership(places: seq<Place>, raw: string, p: Place)
    requires !AllWhitespace(raw) && p in places
    ensures p in FilterView(places, raw) <==>
      OccursIn(Lower(Trim(raw)), Lower(p.title)) || OccursIn(Lower(Trim(raw)), Lower(p.note))
  {
    TrimEmptyIff(raw);
    ContainsIff(Lower(p.title), Query(raw));
    ContainsIff(Lower(p.note), Query(raw));
  }

  /** Appending a record to the collection appends it to the view exactly
      when it passes the filter; the rest of the view is unchanged. */
  lemma FilterViewAppend(places: seq<Place>, p: Place, raw: string)
    ensures FilterView(places + [p], raw) ==
      FilterView(places, raw) + (if Query(raw) == "" || Matches(p, Query(raw)) then [p] else [])
  {
    var q := Query(raw);
    if q != "" {
      Seqs.FilterAppend(places, [p], MatchesQuery(q));
      assert Seqs.Filter([p], MatchesQuery(q)) == (if Matches(p, q) then [p] else []) by {
        assert [p][1..] == [];
      }
    }
  }

  // ---------------------------------------------------------------------
  // Card order

  /** `a` is listed before `b` when its `createdAt` is later. */
  predicate ListedBefore(a: Place, b: Place) {
    Less(b.createdAt, a.createdAt)
  }

  /** Newest first: no card is followed by one with a later `createdAt`. */
  predicate NewestFirst(s: seq<Place>) {
    forall i, j :: 0 <= i < j < |s| ==> !ListedBefore(s[j], s[i])
  }

  /** Inserts `x` before the first record it is not listed after, so that
      records with the same `createdAt` keep their relative order. */
  function Insert(x: Place, t: seq<Place>): (r: seq<Place>)
    requires NewestFirst(t)
    ensures multiset(r) == multiset(t) + multiset{x}
    ensures NewestFirst(r)
  {
    if t == [] || !ListedBefore(t[0], x) then
      PrependNewest(x, t);
      [x] + t
    else
      var rest := Insert(x, t[1..]);
      assert t == [t[0]] + t[1..];
      PrependAfterSkip(x, t, rest);
      [t[0]] + rest
  }

  lemma PrependNewest(x: Place, t: seq<Place>)
    requires NewestFirst(t)
    requires t == [] || !ListedBefore(t[0], x)
    ensures NewestFirst([x] + t)
  {
    forall j | 0 <= j < |t| ensures !ListedBefore(t[j], x) {
      if j > 0 {
        assert !Less(t[0].createdAt, t[j].createdAt);
        LessTotal(x.createdAt, t[0].createdAt);
        LessTransitive(t[0].createdAt, x.createdAt, t[j].createdAt);
      }
    }
    forall i, j | 0 <= i < j < |[x] + t| ensures !ListedBefore(([x] + t)[j], ([x] + t)[i]) {
      if i > 0 {
        assert ([x] + t)[i] == t[i - 1] && ([x] + t)[j] == t[j - 1];
      }
    }
  }

  lemma PrependAfterSkip(x: Place, t: seq<Place>, rest: seq<Place>)
    requires NewestFirst(t) && t != [] && ListedBefore(t[0], x)
    requires multiset(rest) == multiset(t[1..]) + multiset{x}
    requires NewestFirst(rest)
    ensures NewestFirst([t[0]] + rest)
  {
    LessAsymmetric(x.createdAt, t[0].createdAt);
    forall j | 0 <= j < |rest| ensures !ListedBefore(rest[j], t[0]) {
      assert rest[j] in multiset(rest);
      if rest[j] != x {
        assert rest[j] in multiset(t[1..]);
        var k :| 0 <= k < |t[1..]| && t[1..][k] == rest[j];
        assert t[k + 1] == rest[j];
      }
    }
    var r := [t[0]] + rest;
    forall i, j | 0 <= i < j < |r| ensures !ListedBefore(r[j], r[i]) {
      if i > 0 {
        assert r[i] == rest[i - 1] && r[j] == rest[j - 1];
      }
    }
  }

  /** `renderList`'s order: a stable sort, newest `createdAt` first. */
  function DisplayOrder(s: seq<Place>): (r: seq<Place>)
    ensures multiset(r) == multiset(s)
    ensures NewestFirst(r)
  {
    if s == [] then []
    else
      assert s == [s[0]] + s[1..];
      Insert(s[0], DisplayOrder(s[1..]))
  }

  function StampIs(k: string): Place -> bool {
    (p: Place) => p.createdAt == k
  }

  lemma {:induction false} InsertStable(x: Place, t: seq<Place>, k: string)
    requires NewestFirst(t)
    ensures Seqs.Filter(Insert(x, t), StampIs(k)) == Seqs.Filter([x] + t, StampIs(k))
  {
    var f := StampIs(k);
    if t != [] && ListedBefore(t[0], x) {
      InsertStable(x, t[1..], k);
      LessIrreflexive(x.createdAt);
      var rest := Insert(x, t[1..]);
      assert ([t[0]] + rest)[1..] == rest;
      assert ([x] + t)[1..] == t;
      assert ([x] + t[1..])[1..] == t[1..];
      assert t[1..] == t[1..];
    }
  }

  /** The sort is stable: the records sharing a `createdAt` appear among the
      cards in collection order. */
  lemma {:induction false} DisplayOrderStable(s: seq<Place>, k: string)
    ensures Seqs.Filter(DisplayOrder(s), StampIs(k)) == Seqs.Filter(s, StampIs(k))
  {
    if s != [] {
      DisplayOrderStable(s[1..], k);
      InsertStable(s[0], DisplayOrder(s[1..]), k);
      assert ([s[0]] + DisplayOrder(s[1..]))[1..] == DisplayOrder(s[1..]);
    }
  }

  // ---------------------------------------------------------------------
  // Markers

  /** `markerById` after `renderMarkers(view)`: each id maps to the position
      of the marker created for it, and a later record with the same id
      overwrites an earlier one. */
  function MarkerIndex(view: seq<Place>): (m: map<string, nat>)
    ensures forall id :: id in m ==> m[id] < |view| && view[m[id]].id == id
    ensures forall i :: 0 <= i < |view| ==> view[i].id in m && i <= m[view[i].id]
  {
    if view == [] then map[]
    else
      var last := |view| - 1;
      MarkerIndex(view[..last])[view[last].id := last]
  }

  /** The ids with a marker are the ids of the view. */
  lemma MarkerKeys(view: seq<Place>)
    ensures MarkerIndex(view).Keys == Ids(view)
  {
    var m := MarkerIndex(view);
    forall id | id in m ensures id in Ids(view) {
      assert view[m[id]] in view;
    }
    forall id | id in Ids(view) ensures id in m {
      var p :| p in view && p.id == id;
      var i :| 0 <= i < |view| && view[i] == p;
    }
  }

  /** Reordering a collection does not change its ids. */
  lemma IdsOfPermutation(a: seq<Place>, b: seq<Place>)
    requires multiset(a) == multiset(b)
    ensures Ids(a) == Ids(b)
  {
    forall p ensures p in a <==> p in b {
      assert p in a <==> p in multiset(a);
      assert p in b <==> p in multiset(b);
    }
  }

  /** The list and the map show the same places: the ids with a card are
      exactly the ids with a marker, and those are the ids of the view. */
  lemma CardsAndMarkersAgree(places: seq<Place>, raw: string)
    ensures Ids(DisplayOrder(FilterView(places, raw))) == MarkerIndex(FilterView(places, raw)).Keys
    ensures MarkerIndex(FilterView(places, raw)).Keys == Ids(FilterView(places, raw))
  {
    var view := FilterView(places, raw);
    MarkerKeys(view);
    IdsOfPermutation(DisplayOrder(view), view);
  }

  // ---------------------------------------------------------------------
  // Preview

  /** The record `setSelected` shows: none for no selection or an empty id,
      otherwise the first record with the selected id, if any. */
  function Preview(places: seq<Place>, selected: Option<string>): (r: Option<Place>)
    ensures r.Some? <==> selected.Some? && selected.value != "" && HasId(places, selected.value)
    ensures r.Some? ==> r.value in places && r.value.id == selected.value
    ensures r.Some? ==> exists k :: FirstWithId(places, selected.value, k) && places[k] == r.value
  {
    match selected
    case None => None
    case Some(id) => if id == "" then None else FindById(places, id)
  }
}

=== FILE: wrappers.dfy ===
/** Wrappers used across the model: `Option` stands for a
    JavaScript value that may be `null`/`undefined`, `Result` for an operation
    that either yields a value or reports an error to the user. */
module Wrappers {

  datatype Option<+T> = None | Some(value: T) {

    /** The wrapped value, or `default` when there is none. */
    function GetOr(default: T): T {
      match this
      case Some(v) => v
      case None => default
    }
  }

  datatype Result<+R, +E> = Success(value: R) | Failure(error: E)
}
